=== FILE: README.md ===
# Minesweeper engine, modelled in Dafny

This project models the engine of an Angular Minesweeper game and proves
properties of the model. The engine lives in two classes.

- `GameService` (src/app/services/game.service.ts) owns the mine layout. It
  builds an all-zero board, places the mines by rejection sampling after the
  first click (never on the clicked cell), writes the neighbour counts, and
  holds the remaining-safe-cells counter and the game status.
- `BoardComponent` (src/app/components/board/board.component.ts) owns the
  per-cell overlay (`boardParsed`). It handles a click (`onOpenCell`), opens
  one cell (`_openCell`), flood-fills from a zero (`_openCellsAroundZero`),
  chords an opened number (`_manageCellsAround` / `_openCellsAround`), and
  sets `Won` when the counter reaches 0.

Modules, one per file:

| file | module | contents |
|---|---|---|
| wrappers.dfy | `Wrappers` | `Option` |
| enums.dfy | `Enums` | cell values (`Mine` or a number) and `GameStatus` |
| grid.dfy | `Grid` | coordinates, the eight Moore offsets, matrices, cell counting |
| layout.dfy | `Layout` | reference definitions: mine cells, adjacent mines, a consistently numbered board |
| mine_text.dfy | `MineText` | the string form of positions that `_isAlreadyAMine` searches |
| game_service.dfy | `GameService` | the service's state and operations |
| board.dfy | `Board` | `CellStructure`, `_parseBoard`, the two row-major scans |
| flood_fill.dfy | `FloodFill` | `_openCellsAroundZero` and the region it opens |
| board_state.dfy | `BoardState` | the shared state, the game invariant, the `Won` rule, start-up |
| reveal.dfy | `Reveal` | `_openCell`, the chord, `onOpenCell` |
| scenario.dfy | `Scenario` | a one-click game on a 3 by 3 board |
| findings.dfy | `Findings` | the duplicate-test defect of the mine generator |

How the source is rendered:

- A position `[y, x]` is `Coord(y, x)`. A board is a `seq<seq<CellValue>>`,
  where a cell value is `Mine` or `Num(n)`. The mine code is non-numeric: the
  `typeof` test in `_updateBoardNumbers` (game.service.ts:225) skips it, and
  the test fixture writes mines as `'M'` (board.component.spec.ts:26-36). The
  enum file is not part of this model. As a consequence, the `isNaN` test in
  `_manageCellsAround` holds for a mine.
- `AROUND_CELL_OPERATORS` comes from a constants file that is not part of
  this model. The model assumes the eight Moore offsets in row-major order.
  The order decides the order in which a chord visits the neighbours. That
  fixes which mine the chord skips. It also fixes which later mines are
  already opened when a zero neighbour's fill recounts the opened cells, so
  after a losing chord the counter depends on the order.
- Randomness is an input. The generator takes a finite stream of draws,
  standing for the successive `_getRandomInt` pairs, and returns `None` when
  the stream runs out before enough positions are kept; the source would keep
  drawing. `onOpenCell` takes the chosen positions, with a precondition saying
  they are what the generator can deliver.
- The RxJS subjects are replaced by their synchronous effects. The board
  emission makes the component re-parse the board. The counter emission runs
  the `ngOnInit` subscription (`distinctUntilChanged`, then `filter` on 0),
  which sets `Won` when a new value is 0 and differs from the previous one.
- The `'opened-0'` class name, which the flood fill uses as its worklist
  flag, is the boolean `zeroMarked`. Other labels and class names are left
  out.
- Each pass of the flood fill's `while` is modelled as one step: make the
  cell a centre, clear its marker, touch its neighbours. The source makes the
  next centre at the end of a pass instead of the start of the next one. The
  sequence of writes is the same.
- Mutable objects become values. Each operation returns a new session: the
  service's fields plus the component's cells.

Behaviours of the code that a reader might not expect, which the model
keeps:

- There is no guard for a finished game. `_openCell` writes `Running`
  unconditionally, and `setGameStatus` is last-writer-wins.
- A chord leaves the first closed mine it meets closed and unexploded. Later
  closed mines go through `_openCell` and are opened and exploded.
- After a flood fill the counter is recomputed from all opened cells,
  including opened mines. It is not decremented by the number of cells the
  fill opened.
- There is no bounds or dimension checking and no out-of-bounds error.
  Clicked coordinates are on the board by precondition.

## Model

| member | source | states |
|---|---|---|
| Grid.Around | src/app/components/board/board.component.ts:185-194 | the `i`-th offset from a cell leads to a cell adjacent to it |
| Grid.AroundFromZero | src/app/components/board/board.component.ts:185-208 | the eight offsets reach exactly the adjacent positions, so a loop over them visits the whole Moore neighbourhood and nothing else |
| Grid.AllCellsCard | src/app/services/game.service.ts:188-195 | a `v` by `h` grid has exactly `v*h` cells |
| Layout.NumberedBounds | src/app/services/game.service.ts:212-231 | on a consistently numbered board every number lies in 0..8 |
| Layout.ZeroHasNoAdjacentMine | src/app/services/game.service.ts:212-231 | on a consistently numbered board no mine is adjacent to a zero |
| MineText.TextFindsEveryChosen | src/app/services/game.service.ts:239-241 | the substring test rejects every position that really was chosen, so it never lets a duplicate through |
| MineText.TextOverRejects | src/app/services/game.service.ts:239-241 | the substring test also rejects a position never chosen: `[0, 1]` once `[0, 10]` is chosen |
| GameService.GenerateEmptyBoard | src/app/services/game.service.ts:188-195 | `v` rows of `h` zeros: no mines, and trivially consistently numbered |
| GameService.NewEmptyBoard | src/app/services/game.service.ts:37-55 | stores the dimensions and mine count, the empty board, counter `v*h - m` and status `NotStarted`; the chosen positions and the first-click flag are left as they were |
| GameService.SampleIsValid | src/app/services/game.service.ts:167-183 | for any duplicate test that rejects every chosen position, a finished draw yields `m` distinct on-board positions, none the first click, extending what was chosen |
| GameService.GenerateMinesPositions | src/app/services/game.service.ts:167-183 | a finished generation yields exactly `m` distinct on-board positions other than the first click |
| GameService.NoRoomForMines | src/app/services/game.service.ts:167-183 | valid positions need `m < v*h`; with `m >= v*h` no draw stream lets the generator finish, so the first click never returns |
| GameService.SampleCompletes | src/app/services/game.service.ts:167-183 | with exact membership, generation finishes once the draws have shown enough distinct free positions |
| GameService.GenerateMinesPositionsAsWritten | src/app/services/game.service.ts:167-183 | with the substring test, a finished generation still yields valid positions |
| GameService.InsertMines | src/app/services/game.service.ts:200-206 | exactly the listed positions become mines; every other entry is unchanged |
| GameService.BumpAround | src/app/services/game.service.ts:214-229 | one mine's pass raises every numeric in-bounds neighbour by one and changes nothing else |
| GameService.UpdateBoardNumbers | src/app/services/game.service.ts:212-231 | every numeric entry grows by the number of listed mines adjacent to it; mines are untouched |
| GameService.CountAdjacentIsCard | src/app/services/game.service.ts:212-231 | for distinct positions, the count the numbering adds is the size of the set of adjacent positions |
| GameService.PopulateEmptyBoard | src/app/services/game.service.ts:61-66 | on the empty board: the board is consistently numbered, its mines are exactly the positions, it has `m` mines, and the first click is not a mine |
| GameService.PopulatedIsNumbered | src/app/services/game.service.ts:200-231 | mines written then numbers raised gives every number equal to its count of adjacent mines |
| GameService.MinesArePositions | src/app/services/game.service.ts:200-206 | after population a cell is a mine exactly when it is one of the positions |
| GameService.DecreaseRemainingEmptyCells | src/app/services/game.service.ts:72-74 | the counter drops by exactly the given value; nothing else changes |
| GameService.SetRemainEmptyCells | src/app/services/game.service.ts:81-83 | the counter is overwritten without a guard; nothing else changes |
| GameService.SetGameStatus | src/app/services/game.service.ts:139-141 | the status is overwritten without a guard; nothing else changes |
| GameService.StatusLastWriterWins | src/app/services/game.service.ts:139-141 | two status writes equal the last one alone, so `Running` can overwrite `Lost` |
| Board.ParseBoard | src/app/components/board/board.component.ts:141-166 | every cell is closed, unexploded and unmarked, with its `type` copied from the layout |
| Board.FindCellData | src/app/components/board/board.component.ts:286-294 | returns a matching cell with no match before it in row-major order, and nothing exactly when no cell matches |
| Board.FindAllCellData | src/app/components/board/board.component.ts:340-354 | lists exactly the matching cells, strictly in row-major order, so its length is the number of matching cells |
| Board.OpenOne | src/app/components/board/board.component.ts:359-366 | opening one closed cell adds exactly that cell to the opened cells |
| FloodFill.ExpandAround | src/app/components/board/board.component.ts:305-322 | every on-board neighbour of the centre is touched exactly once; no other cell changes |
| FloodFill.Step | src/app/components/board/board.component.ts:301-331 | one pass: the centre gets its flag and loses its marker, its neighbours are touched, nothing else changes |
| FloodFill.StepMeasure | src/app/components/board/board.component.ts:301-332 | each pass makes a new centre or retires a marked centre, and only non-centres receive the marker, so the loop ends |
| FloodFill.ReachExtend | src/app/components/board/board.component.ts:312-316 | a zero next to a cell in the zero region is in the region |
| FloodFill.ReachClosed | src/app/components/board/board.component.ts:301-332 | with no marker left, every zero reachable from a centred start is a centre |
| FloodFill.OpenCellsAroundZero | src/app/components/board/board.component.ts:301-332 | ends with no marker and the start centred; from a zero with nothing queued it opens only the zero region and its border; from the state the component keeps, it opens exactly that area and centres exactly the region |
| BoardState.Init | src/app/components/board/board.component.ts:53-100 | the empty game: invariant holds, first click armed by `createNewEmptyBoard`, counter `v*h - m`, status `NotStarted`, or `Won` at once when there is no safe cell |
| BoardState.WonMeansCleared | src/app/components/board/board.component.ts:73-79 | while no mine is opened, the counter is 0 exactly when every safe cell is open |
| Reveal.OpenMine | src/app/components/board/board.component.ts:267-274 | a mine is opened and exploded, the status is `Lost`, the counter and all other cells are unchanged |
| Reveal.OpenNumber | src/app/components/board/board.component.ts:275-284 | a number is opened, the counter drops by one, the status is `Running` or `Won` when the counter has just reached 0 |
| Reveal.OpenZero | src/app/components/board/board.component.ts:275-279 | a zero is opened and filled; the counter becomes `v*h - (m + opened)`; between clicks exactly the flood area is newly opened and no mine |
| Reveal.OpenCell | src/app/components/board/board.component.ts:267-285 | the three cases of opening a cell; between clicks it keeps the game invariant and opens no other mine |
| Reveal.FirstClosedMine | src/app/components/board/board.component.ts:214-228 | the offset of the first closed on-board mine around the cell, the one the chord skips |
| Reveal.OpenCellsAround | src/app/components/board/board.component.ts:214-236 | safe neighbours end open, closed mine neighbours but the first end opened and exploded, no other mine is touched, any other newly opened cell lies in the flood area of a closed zero neighbour, and the game is lost when some neighbour was a closed mine; otherwise it ends `Lost` only if it already was; when no closed mine neighbour exists: with no closed neighbour at all nothing changes, otherwise the status is `Running`, or `Won` with the counter at 0, and when no mine was open it opens no mine and ends `Won` exactly when the counter is 0 |
| Reveal.ManageCellsAround | src/app/components/board/board.component.ts:242-249 | the chord runs only on a non-zero number; on a zero or a mine nothing changes |
| Reveal.PlaceMines | src/app/components/board/board.component.ts:106-110 | the first click clears the flag, places the mines at the given positions (never on the click) and re-parses the board |
| Reveal.OnOpenCell | src/app/components/board/board.component.ts:106-116 | after the first-click preparation, a closed clicked cell gets the outcome of `_openCell` for its kind (mine lost with the counter kept, number counter minus one, zero the exact flood area and recount) and an opened one the chord or no change; every click keeps the game invariant and leaves the clicked cell open; the board changes only on the first click; the first click never loses and opens no mine |
| Scenario.CornerMineWins | src/app/components/board/board.component.ts:106-116 | on a 3 by 3 board with the mine at `[0, 0]`, a first click at `[2, 2]` opens every safe cell and no mine, the counter reaches 0 and the game is won |
| Findings.AsWrittenCanHang | src/app/services/game.service.ts:167-183 | on a 1 by 12 board with 11 mines and the first click at `[0, 0]`, no draw stream starting with `[0, 10]` lets the generator finish |
| Findings.CorrectedCompletes | src/app/services/game.service.ts:167-183 | with exact membership the same draws finish as soon as every free cell has been drawn |

## Left out

- RxJS and Angular plumbing: subjects, `takeUntil`, `ngOnDestroy`, the
  `firstCellIsReadyToOpen` setter. Only their synchronous effects are
  modelled.
- The dialogs, `onFocusCell`, labels and class names other than the
  `'opened-0'` marker. They are presentation only.
- `Math.random`: `_getRandomInt` is replaced by the draw stream, and
  `_generateRandomType` with the random `isMine` field of `_parseBoard` is
  left out, because the reveal logic never reads `isMine`.
- cell.component.ts: click emission and the display of mines after a loss
  are UI behaviour.
- A second game: a new `newEmptyBoard` recreates the subjects and leaves the
  old subscriptions behind. The model covers a single game from `Init`.
- The 9 by 9 test fixture is not checked cell by cell. Its counter value of
  80 does not match 81 - 10 anyway.
- The service's counter before the first `newEmptyBoard`: the subject does
  not exist yet, and `GameService.Constructed` holds 0 in its place. `Init`
  overwrites it.
- A mine count of `v*h` or more: the first click never returns, because the
  draw loop cannot collect enough free cells (`GameService.NoRoomForMines`).
  The model has no such call: `Reveal.OnOpenCell` demands valid positions,
  which do not exist then. `BoardState.Init` still accepts such a count and
  reports `Won` at once when it equals `v*h`.
- The `y`, `x`, `id` and `label` fields of `CellStructure` are left out: the
  engine never reads them except to find a cell's position, which the model
  passes directly.
- GameService.GenerateMinesPositions: stops with `None` when the draw stream
  runs out, where the source keeps drawing forever; completion is stated
  separately by `SampleCompletes`.
- Reveal.OnOpenCell: takes the mine positions as an argument with a
  precondition instead of calling the generator. The generator's own contract
  says every finished generation meets that precondition.
- Reveal.OpenCellsAround: the properties of the chord are proved for
  sessions that satisfy the game invariant. For an arbitrary grid the model
  still computes the result but only states that the dimensions and the
  service fields other than counter and status are unchanged. After a mine
  has been opened the counter no longer counts closed safe cells, and for a
  chord without a closed mine neighbour the model then states only that the
  status is `Running`, or `Won` with the counter at 0, not that a counter of 0
  is always `Won`.
- FloodFill.OpenCellsAroundZero: the exact opened area is proved only from
  the state the component keeps between clicks. From an arbitrary grid the
  model still states that it stops, opens and centres only, and leaves no
  marker.

## Findings

| source | as written | input that shows it | evidently intended | confidence | as-written member | corrected member |
|---|---|---|---|---|---|---|
| src/app/services/game.service.ts:239-241 | `_isAlreadyAMine` joins the chosen positions into a string and tests whether the candidate's text occurs anywhere in it, so `"0,1"` matches inside `"0,10"` | a 1 by 12 board, 11 mines, first click `[0, 0]`, first draw `[0, 10]`: `[0, 1]` is then always rejected, so the `while` of `_generateMinesPositions` never ends | a candidate is rejected only when it equals a chosen position | high (not executed) | Findings.AsWrittenCanHang | Findings.CorrectedCompletes |

The rest of the model uses the corrected generator,
`GameService.GenerateMinesPositions`, whose duplicate test is exact
membership (`GameService.IsAlreadyAMine`).

=== FILE: board.dfy ===
/**
 * The board component's per-cell overlay (board.component.ts): the layout
 * entry copied from the service plus the flags the reveal logic reads and
 * writes, and the two row-major scans the component uses to look cells up.
 */
module Board {
  import opened Wrappers
  import opened Grid
  import opened Enums
  import opened Layout

  /**
   * `CellStructure`, reduced to the fields the engine consults: `type`,
   * `isOpened`, `isMineExploded`, `isCenterZero`, and whether
   * `openedIdClassName` holds the `'opened-0'` marker the flood fill uses as
   * its worklist flag.
   */
  datatype Cell = Cell(kind: CellValue, isOpened: bool, isMineExploded: bool,
                       isCenterZero: bool, zeroMarked: bool)

  type Cells = seq<seq<Cell>>

  /** The cell `_parseBoard` builds for one layout entry. */
  function Fresh(k: CellValue): Cell {
    Cell(k, false, false, false, false)
  }

  /** `_parseBoard`: every cell closed, unexploded and unflagged, its `type` copied from the layout. */
  function ParseBoard(b: MineBoard, v: nat, h: nat): (r: Cells)
    requires Shape(b, v, h)
    ensures Shape(r, v, h)
    ensures KindsMatch(r, b, v, h)
    ensures forall c :: InBounds(v, h, c) ==> Untouched(At(r, c))
  {
    seq(v, y requires 0 <= y < v => seq(h, x requires 0 <= x < h => Fresh(b[y][x])))
  }

  predicate Untouched(a: Cell) {
    !a.isOpened && !a.isMineExploded && !a.isCenterZero && !a.zeroMarked
  }

  /** The overlay shows the layout's entries. */
  ghost predicate KindsMatch(g: Cells, b: MineBoard, v: nat, h: nat) {
    && Shape(g, v, h) && Shape(b, v, h)
    && forall c :: InBounds(v, h, c) ==> At(g, c).kind == At(b, c)
  }

  /** `a` can turn into `b` by revealing: same entry and explosion flag, open and centre flags only set. */
  predicate Grown(a: Cell, b: Cell) {
    && a.kind == b.kind
    && a.isMineExploded == b.isMineExploded
    && (a.isOpened ==> b.isOpened)
    && (a.isCenterZero ==> b.isCenterZero)
  }

  ghost predicate GrownGrid(g0: Cells, g: Cells, v: nat, h: nat) {
    && Shape(g0, v, h) && Shape(g, v, h)
    && forall c :: InBounds(v, h, c) ==> Grown(At(g0, c), At(g, c))
  }

  lemma GrownTrans(g0: Cells, g1: Cells, g2: Cells, v: nat, h: nat)
    requires GrownGrid(g0, g1, v, h) && GrownGrid(g1, g2, v, h)
    ensures GrownGrid(g0, g2, v, h)
  {
    forall c | InBounds(v, h, c)
      ensures Grown(At(g0, c), At(g2, c))
    {
      assert Grown(At(g0, c), At(g1, c));
      assert Grown(At(g1, c), At(g2, c));
    }
  }

  /** No cell carries the `'opened-0'` marker. */
  ghost predicate NoMarks(g: Cells, v: nat, h: nat)
    requires Shape(g, v, h)
  {
    forall c :: InBounds(v, h, c) ==> !At(g, c).zeroMarked
  }

  predicate IsOpenedCell(a: Cell) {
    a.isOpened
  }

  predicate IsZeroMarked(a: Cell) {
    a.zeroMarked
  }

  // ---------------------------------------------------------------------
  // Row-major scans
  // ---------------------------------------------------------------------

  /** `a` comes before `b` in row-major order. */
  predicate RowMajorBefore(a: Coord, b: Coord) {
    a.y < b.y || (a.y == b.y && a.x < b.x)
  }

  /** `row.find` from column `x` on: the first column whose cell satisfies `p`. */
  function FindInRow(row: seq<Cell>, p: Cell -> bool, x: nat): (r: Option<nat>)
    requires x <= |row|
    ensures r.Some? ==> x <= r.value < |row| && p(row[r.value])
    ensures r.Some? ==> forall k :: x <= k < r.value ==> !p(row[k])
    ensures r.None? ==> forall k :: x <= k < |row| ==> !p(row[k])
    decreases |row| - x
  {
    if x == |row| then None
    else if p(row[x]) then Some(x)
    else FindInRow(row, p, x + 1)
  }

  /** The scan of `_findCellDataByKeyValue` from row `y` on. */
  function FindFrom(g: Cells, v: nat, h: nat, p: Cell -> bool, y: nat): (r: Option<Coord>)
    requires Shape(g, v, h) && y <= v
    ensures r.Some? ==> InBounds(v, h, r.value) && y <= r.value.y && p(At(g, r.value))
    ensures r.Some? ==> forall d :: InBounds(v, h, d) && y <= d.y && RowMajorBefore(d, r.value) ==> !p(At(g, d))
    ensures r.None? ==> forall d :: InBounds(v, h, d) && y <= d.y ==> !p(At(g, d))
    decreases v - y
  {
    if y == v then None
    else
      match FindInRow(g[y], p, 0)
      case Some(x) => Some(Coord(y, x))
      case None => FindFrom(g, v, h, p, y + 1)
  }

  /**
   * `_findCellDataByKeyValue`: the first cell in row-major order whose field
   * has the wanted value, or nothing when no cell has it.
   */
  function FindCellData(g: Cells, v: nat, h: nat, p: Cell -> bool): (r: Option<Coord>)
    requires Shape(g, v, h)
    ensures r.Some? ==> InBounds(v, h, r.value) && p(At(g, r.value))
    ensures r.Some? ==> forall d :: InBounds(v, h, d) && RowMajorBefore(d, r.value) ==> !p(At(g, d))
    ensures r.None? <==> forall d :: InBounds(v, h, d) ==> !p(At(g, d))
  {
    FindFrom(g, v, h, p, 0)
  }

  /** `row.filter` over columns `x..`, as positions in row `y`. */
  function FilterRow(row: seq<Cell>, p: Cell -> bool, y: int, x: nat): (r: seq<Coord>)
    requires x <= |row|
    ensures forall d :: d in r <==> d.y == y && x <= d.x < |row| && p(row[d.x])
    ensures RowMajorSorted(r)
    ensures forall i :: 0 <= i < |r| ==> r[i].y == y && x <= r[i].x
    decreases |row| - x
  {
    if x == |row| then []
    else if p(row[x]) then [Coord(y, x)] + FilterRow(row, p, y, x + 1)
    else FilterRow(row, p, y, x + 1)
  }

  /** Strictly increasing in row-major order. */
  predicate RowMajorSorted(s: seq<Coord>) {
    forall i, j :: 0 <= i < j < |s| ==> RowMajorBefore(s[i], s[j])
  }

  /** Two sorted runs, the first wholly in earlier rows, concatenate to a sorted run. */
  lemma SortedConcat(a: seq<Coord>, b: seq<Coord>, y: int)
    requires RowMajorSorted(a) && RowMajorSorted(b)
    requires forall i :: 0 <= i < |a| ==> a[i].y == y
    requires forall j :: 0 <= j < |b| ==> y < b[j].y
    ensures RowMajorSorted(a + b)
  {
    forall i, j | 0 <= i < j < |a + b|
      ensures RowMajorBefore((a + b)[i], (a + b)[j])
    {
      if j < |a| {
        assert RowMajorBefore(a[i], a[j]);
      } else if i >= |a| {
        assert RowMajorBefore(b[i - |a|], b[j - |a|]);
      }
    }
  }

  /** The rows `y..` of `_findAllCellDataByKeyValue`. */
  function FindAllFrom(g: Cells, v: nat, h: nat, p: Cell -> bool, y: nat): (r: seq<Coord>)
    requires Shape(g, v, h) && y <= v
    ensures forall d :: d in r <==> InBounds(v, h, d) && y <= d.y && p(At(g, d))
    ensures RowMajorSorted(r)
    ensures forall i :: 0 <= i < |r| ==> y <= r[i].y
    decreases v - y
  {
    if y == v then []
    else
      var here := FilterRow(g[y], p, y, 0);
      var rest := FindAllFrom(g, v, h, p, y + 1);
      SortedConcat(here, rest, y);
      here + rest
  }

  /**
   * `_findAllCellDataByKeyValue`: every cell whose field has the wanted value,
   * each once, in row-major order.
   */
  function FindAllCellData(g: Cells, v: nat, h: nat, p: Cell -> bool): (r: seq<Coord>)
    requires Shape(g, v, h)
    ensures forall d :: d in r <==> InBounds(v, h, d) && p(At(g, d))
    ensures RowMajorSorted(r)
    ensures |r| == |Matching(g, v, h, p)|
  {
    var r := FindAllFrom(g, v, h, p, 0);
    assert Distinct(r);
    DistinctCard(r);
    assert Elements(r) == Matching(g, v, h, p);
    r
  }

  /** The cells satisfying `p`. */
  function Matching(g: Cells, v: nat, h: nat, p: Cell -> bool): (r: set<Coord>)
    requires Shape(g, v, h)
    ensures forall c :: c in r <==> InBounds(v, h, c) && p(At(g, c))
  {
    set c | c in AllCells(v, h) && p(At(g, c))
  }

  /** The opened cells. */
  function OpenedSet(g: Cells, v: nat, h: nat): set<Coord>
    requires Shape(g, v, h)
  {
    Matching(g, v, h, IsOpenedCell)
  }

  /** Opening one closed cell adds exactly that cell to the opened ones. */
  lemma OpenOne(g: Cells, v: nat, h: nat, c: Coord, a: Cell)
    requires Shape(g, v, h) && InBounds(v, h, c) && !At(g, c).isOpened && a.isOpened
    ensures OpenedSet(Put(g, c, a), v, h) == OpenedSet(g, v, h) + {c}
    ensures |OpenedSet(Put(g, c, a), v, h)| == |OpenedSet(g, v, h)| + 1
  {
    assert OpenedSet(Put(g, c, a), v, h) == OpenedSet(g, v, h) + {c};
  }
}

=== FILE: board_state.dfy ===
/**
 * The state the board component and the game service share during one game,
 * the invariant every click preserves, and what that invariant says about the
 * remaining-cells counter and the `Won` status.
 */
module BoardState {
  import opened Grid
  import opened Enums
  import opened Layout
  import opened GameService
  import opened Board
  import opened FloodFill

  /** The service's fields together with the component's `boardParsed`. */
  datatype Session = Session(svc: Service, cells: Cells)

  function Rows(s: Session): nat {
    s.svc.vertical
  }

  function Cols(s: Session): nat {
    s.svc.horizontal
  }

  ghost predicate SessionShape(s: Session) {
    Shape(s.svc.board, Rows(s), Cols(s)) && Shape(s.cells, Rows(s), Cols(s))
  }

  /**
   * The `ngOnInit` subscription on the counter (`distinctUntilChanged` then
   * `filter(length => length === 0)`): a newly emitted 0 that differs from
   * the previous value sets `Won`.
   */
  function Notify(previous: int, svc: Service): (r: Service)
    ensures r.remainingEmptyCells == svc.remainingEmptyCells
    ensures r.gameStatus == (if svc.remainingEmptyCells == 0 && previous != 0 then Won else svc.gameStatus)
    ensures r.(gameStatus := svc.gameStatus) == svc
  {
    if svc.remainingEmptyCells == 0 && svc.remainingEmptyCells != previous then SetGameStatus(svc, Won) else svc
  }

  /** The status after an emission from `previous` to `current`, when `otherwise` was the status before it. */
  function WonIf(previous: int, current: int, otherwise: GameStatus): GameStatus {
    if current == 0 && previous != 0 then Won else otherwise
  }

  // ---------------------------------------------------------------------
  // The game invariant
  // ---------------------------------------------------------------------

  /** Every opened zero has served as a centre of the fill. */
  ghost predicate OpenedZerosCentred(g: Cells, v: nat, h: nat)
    requires Shape(g, v, h)
  {
    forall c :: InBounds(v, h, c) && At(g, c).isOpened && IsZero(At(g, c).kind) ==> At(g, c).isCenterZero
  }

  /**
   * What the fill leaves behind: no marker, every centre open with all its
   * neighbours open and its zero neighbours centres, every open zero a centre.
   */
  ghost predicate Settled(g: Cells, v: nat, h: nat)
    requires Shape(g, v, h)
  {
    NoMarks(g, v, h) && CentresOpened(g, v, h) && CentresExpanded(g, v, h) && OpenedZerosCentred(g, v, h)
  }

  /** Only opened mines are exploded. */
  ghost predicate ExplosionsOpenMines(g: Cells, v: nat, h: nat)
    requires Shape(g, v, h)
  {
    forall c :: InBounds(v, h, c) && At(g, c).isMineExploded ==> At(g, c).isOpened && At(g, c).kind == Mine
  }

  /** No opened cell is a mine. */
  ghost predicate NoMineOpened(g: Cells, v: nat, h: nat)
    requires Shape(g, v, h)
  {
    forall c :: InBounds(v, h, c) && At(g, c).isOpened ==> At(g, c).kind != Mine
  }

  predicate IsSafeCell(a: Cell) {
    a.kind != Mine
  }

  /** Until a mine is opened, the counter is the number of safe cells not yet opened. */
  ghost predicate CounterTracks(s: Session)
    requires SessionShape(s)
  {
    NoMineOpened(s.cells, Rows(s), Cols(s)) ==>
      s.svc.remainingEmptyCells == Rows(s) * Cols(s) - s.svc.minesLenght - |OpenedSet(s.cells, Rows(s), Cols(s))|
  }

  ghost predicate AllUntouched(g: Cells, v: nat, h: nat)
    requires Shape(g, v, h)
  {
    forall c :: InBounds(v, h, c) ==> Untouched(At(g, c))
  }

  /** What holds between clicks. */
  ghost predicate GameInv(s: Session) {
    && SessionShape(s)
    && KindsMatch(s.cells, s.svc.board, Rows(s), Cols(s))
    && Numbered(s.svc.board, Rows(s), Cols(s))
    && Settled(s.cells, Rows(s), Cols(s))
    && ExplosionsOpenMines(s.cells, Rows(s), Cols(s))
    && CounterTracks(s)
    && (s.svc.isFirstClickInCell ==>
          && AllZero(s.svc.board, Rows(s), Cols(s))
          && AllUntouched(s.cells, Rows(s), Cols(s))
          && s.svc.remainingEmptyCells == Rows(s) * Cols(s) - s.svc.minesLenght)
    && (!s.svc.isFirstClickInCell ==> |MineCells(s.svc.board, Rows(s), Cols(s))| == s.svc.minesLenght)
  }

  /** The invariant once the mines are down. */
  ghost predicate Playing(s: Session) {
    GameInv(s) && !s.svc.isFirstClickInCell
  }

  /**
   * `createNewEmptyBoard` as `ngOnInit` runs it: the service builds an empty
   * board, the constructor's subscription parses it, the first click is
   * armed, and the counter subscription sees the initial value, so a board
   * without safe cells is won at once.
   */
  function Init(v: nat, h: nat, m: nat): (r: Session)
    ensures Rows(r) == v && Cols(r) == h && r.svc.minesLenght == m
    ensures GameInv(r) && r.svc.isFirstClickInCell
    ensures r.svc.remainingEmptyCells == v * h - m
    ensures r.svc.gameStatus == (if v * h == m then Won else NotStarted)
  {
    AllCellsCard(v, h);
    var svc := NewEmptyBoard(Constructed, v, h, m).(isFirstClickInCell := true);
    var r := Session(Notify(v * h - m + 1, svc), ParseBoard(svc.board, v, h));
    assert OpenedSet(r.cells, v, h) == {};
    r
  }

  // ---------------------------------------------------------------------
  // The counter and the end of the game
  // ---------------------------------------------------------------------

  /** A subset as large as a finite set is the whole set. */
  lemma SubsetSameCard<T>(a: set<T>, b: set<T>)
    requires a <= b && |a| == |b|
    ensures a == b
  {
    if a != b {
      var x :| x in b && x !in a;
      SubsetCard(a, b - {x});
    }
  }

  /** The safe cells are the cells that are not mines. */
  lemma SafeCellsCard(s: Session)
    requires SessionShape(s) && KindsMatch(s.cells, s.svc.board, Rows(s), Cols(s))
    ensures |Matching(s.cells, Rows(s), Cols(s), IsSafeCell)|
            == Rows(s) * Cols(s) - |MineCells(s.svc.board, Rows(s), Cols(s))|
  {
    var v, h := Rows(s), Cols(s);
    var safe := Matching(s.cells, v, h, IsSafeCell);
    var mines := MineCells(s.svc.board, v, h);
    AllCellsCard(v, h);
    assert safe == AllCells(v, h) - mines;
    assert mines <= AllCells(v, h);
  }

  /**
   * While no mine is opened, the counter is 0 exactly when every safe cell
   * is open: the `Won` the subscription sets means the board is cleared.
   */
  lemma WonMeansCleared(s: Session)
    requires Playing(s) && NoMineOpened(s.cells, Rows(s), Cols(s))
    ensures s.svc.remainingEmptyCells == 0 <==>
              forall c :: InBounds(Rows(s), Cols(s), c) && At(s.cells, c).kind != Mine ==> At(s.cells, c).isOpened
  {
    var v, h := Rows(s), Cols(s);
    var seen := OpenedSet(s.cells, v, h);
    var safe := Matching(s.cells, v, h, IsSafeCell);
    SafeCellsCard(s);
    assert seen <= safe;
    if s.svc.remainingEmptyCells == 0 {
      SubsetSameCard(seen, safe);
      forall c | InBounds(v, h, c) && At(s.cells, c).kind != Mine
        ensures At(s.cells, c).isOpened
      {
        assert c in safe;
      }
    }
    if forall c :: InBounds(v, h, c) && At(s.cells, c).kind != Mine ==> At(s.cells, c).isOpened {
      assert safe <= seen;
      assert seen == safe;
      assert |MineCells(s.svc.board, v, h)| == s.svc.minesLenght;
      assert |seen| == v * h - s.svc.minesLenght;
    }
  }
}

=== FILE: enums.dfy ===
/**
 * The two enumerations the engine consults. The source keeps them in a file
 * that is not part of this model; only the facts the engine relies on are kept:
 * the mine code is not a number, every other cell holds a number.
 */
module Enums {

  /** A layout entry: the mine code, or the count of neighbouring mines. */
  datatype CellValue = Mine | Num(n: int)

  /** The four game states. */
  datatype GameStatus = NotStarted | Running | Won | Lost

  /** `type === 0` in the source. */
  predicate IsZero(v: CellValue) {
    v == Num(0)
  }
}

=== FILE: findings.dfy ===
/**
 * The text-based duplicate test of `_generateMinesPositions` can keep the
 * generator from ever finishing. On a board of one row and twelve columns,
 * with the first click at the left end and eleven mines to place, every
 * other cell must become a mine. Once `[0, 10]` has been chosen, the text of
 * `[0, 1]`, `"0,1"`, occurs inside `"0,10"`, so `[0, 1]` is rejected on every
 * later draw and the loop never reaches eleven positions. With exact
 * membership the same draws finish.
 */
module Findings {
  import opened Wrappers
  import opened Grid
  import opened GameService
  import opened MineText

  const First := Coord(0, 0)

  /** Once `[0, 10]` is chosen, the text test rejects `[0, 1]`. */
  lemma PrefixShadowed(chosen: seq<Coord>)
    requires Coord(0, 10) in chosen
    ensures IsAlreadyAMineText(chosen, Coord(0, 1))
  {
    var joined := JoinText(chosen);
    TextFindsEveryChosen(chosen, Coord(0, 10));
    assert Decimal(10) == "10";
    assert CoordText(Coord(0, 10)) == "0,10";
    assert CoordText(Coord(0, 1)) == "0,1";
    var i :| 0 <= i <= |joined| - 4 && OccursAt(joined, "0,10", i);
    assert joined[i..i + 3] == joined[i..i + 4][..3];
    assert OccursAt(joined, "0,1", i);
  }

  /** Without `[0, 1]` and the first click, a valid prefix has at most ten of the twelve cells. */
  lemma ChosenAtMostTen(chosen: seq<Coord>)
    requires ValidPrefix(chosen, 1, 12, 11, First) && Coord(0, 1) !in chosen
    ensures |chosen| <= 10
  {
    var room := AllCells(1, 12) - {First, Coord(0, 1)};
    AllCellsCard(1, 12);
    assert |AllCells(1, 12) - {First, Coord(0, 1)}| == 12 - 2;
    assert Elements(chosen) <= room;
    SubsetCard(Elements(chosen), room);
    DistinctCard(chosen);
  }

  /** From a prefix holding `[0, 10]` but not `[0, 1]`, no stream of on-board draws completes. */
  lemma {:induction false} StuckForever(draws: seq<Coord>, chosen: seq<Coord>)
    requires forall d :: d in draws ==> InBounds(1, 12, d)
    requires ValidPrefix(chosen, 1, 12, 11, First)
    requires Coord(0, 10) in chosen && Coord(0, 1) !in chosen
    ensures RejectionSample(IsAlreadyAMineText, 11, First, draws, chosen) == None
    decreases |draws|
  {
    ChosenAtMostTen(chosen);
    if |draws| > 0 {
      var d := draws[0];
      if !IsAlreadyAMineText(chosen, d) && IsDifferentFromFirstCellOpened(d, First) {
        PrefixShadowed(chosen);
        if d in chosen {
          TextFindsEveryChosen(chosen, d);
        }
        var next := chosen + [d];
        assert ValidPrefix(next, 1, 12, 11, First);
        StuckForever(draws[1..], next);
      } else {
        StuckForever(draws[1..], chosen);
      }
    }
  }

  /**
   * As written: when the first accepted draw is `[0, 10]`, no continuation
   * of on-board draws lets `_generateMinesPositions` place its eleven mines,
   * so the source's `while` never ends.
   */
  lemma AsWrittenCanHang(rest: seq<Coord>)
    requires forall d :: d in rest ==> InBounds(1, 12, d)
    ensures GenerateMinesPositionsAsWritten(11, 1, 12, First, [Coord(0, 10)] + rest) == None
  {
    var draws := [Coord(0, 10)] + rest;
    assert !IsAlreadyAMineText([], Coord(0, 10));
    assert draws[1..] == rest && [] + [Coord(0, 10)] == [Coord(0, 10)];
    assert RejectionSample(IsAlreadyAMineText, 11, First, draws, [])
        == RejectionSample(IsAlreadyAMineText, 11, First, rest, [Coord(0, 10)]);
    StuckForever(rest, [Coord(0, 10)]);
  }

  /**
   * Corrected: with exact membership the same draws place all eleven mines
   * as soon as every cell but the first click has been drawn.
   */
  lemma CorrectedCompletes(rest: seq<Coord>)
    requires forall d :: d in rest ==> InBounds(1, 12, d)
    requires forall c :: InBounds(1, 12, c) && c != First ==> c in [Coord(0, 10)] + rest
    ensures GenerateMinesPositions(11, 1, 12, First, [Coord(0, 10)] + rest).Some?
  {
    var draws := [Coord(0, 10)] + rest;
    var others := AllCells(1, 12) - {First};
    AllCellsCard(1, 12);
    assert |others| == 11;
    assert others <= FreeDrawn(draws, [], First);
    SubsetCard(others, FreeDrawn(draws, [], First));
    SampleCompletes(11, First, draws, []);
  }
}

=== FILE: flood_fill.dfy ===
/**
 * `_openCellsAroundZero` (board.component.ts): the flood fill that opens the
 * region around a zero cell. Zero neighbours are queued by writing the
 * `'opened-0'` marker into their class name; the next centre is the first
 * marked cell in row-major order, so the queue is the board itself.
 */
module FloodFill {
  import opened Wrappers
  import opened Grid
  import opened Enums
  import opened Board

  /**
   * What one centre does to a neighbour: a zero that has not been a centre
   * yet is opened and queued; any other closed cell is opened with its
   * number shown; everything else is left as it is.
   */
  function Touch(a: Cell): (r: Cell)
    ensures Grown(a, r) && r.isCenterZero == a.isCenterZero
    ensures r.isOpened || (a.isCenterZero && r == a)
    ensures r.zeroMarked ==> a.zeroMarked || (IsZero(a.kind) && !a.isCenterZero)
    ensures IsZero(a.kind) && !a.isCenterZero ==> r.zeroMarked
  {
    if IsZero(a.kind) then
      if !a.isCenterZero then a.(isOpened := true, zeroMarked := true) else a
    else if !a.isOpened then a.(isOpened := true, zeroMarked := false)
    else a
  }

  /** Cell `d` of `r` is cell `d` of `g`, touched when `touched` holds. */
  predicate TouchedWhen(g: Cells, r: Cells, touched: bool, d: Coord)
    requires Inside(g, d) && Inside(r, d)
  {
    At(r, d) == if touched then Touch(At(g, d)) else At(g, d)
  }

  /** The `for` over offsets `j..` around the centre `c`, skipping those off the board. */
  function ExpandFrom(g: Cells, v: nat, h: nat, c: Coord, j: nat): (r: Cells)
    requires Shape(g, v, h) && j <= |Offsets|
    ensures Shape(r, v, h)
    ensures forall d :: InBounds(v, h, d) ==> TouchedWhen(g, r, AroundFrom(c, j, d), d)
    decreases |Offsets| - j
  {
    if j == |Offsets| then g
    else
      var n := Around(c, j);
      var g1 := if InBounds(v, h, n) then Put(g, n, Touch(At(g, n))) else g;
      var r := ExpandFrom(g1, v, h, c, j + 1);
      forall d | InBounds(v, h, d)
        ensures TouchedWhen(g, r, AroundFrom(c, j, d), d)
      {
        AroundFromStep(c, j, d);
        assert TouchedWhen(g1, r, AroundFrom(c, j + 1, d), d);
      }
      r
  }

  /** Every on-board neighbour of `c` is touched once; no other cell changes. */
  function ExpandAround(g: Cells, v: nat, h: nat, c: Coord): (r: Cells)
    requires Shape(g, v, h)
    ensures Shape(r, v, h)
    ensures forall d :: InBounds(v, h, d) ==> TouchedWhen(g, r, Adjacent(c, d), d)
  {
    var r := ExpandFrom(g, v, h, c, 0);
    forall d | InBounds(v, h, d)
      ensures TouchedWhen(g, r, Adjacent(c, d), d)
    {
      AroundFromZero(c, d);
      assert TouchedWhen(g, r, AroundFrom(c, 0, d), d);
    }
    r
  }

  /** Cell `d` after `m` has served as a centre. */
  predicate SteppedAt(g: Cells, r: Cells, m: Coord, d: Coord)
    requires Inside(g, d) && Inside(r, d)
  {
    At(r, d) == if d == m then At(g, d).(isCenterZero := true, zeroMarked := false)
                else if Adjacent(m, d) then Touch(At(g, d))
                else At(g, d)
  }

  /**
   * One pass of the fill's `while`: the centre `m` gets `isCenterZero`, its
   * marker is cleared, and its neighbours are touched.
   */
  function Step(g: Cells, v: nat, h: nat, m: Coord): (r: Cells)
    requires Shape(g, v, h) && InBounds(v, h, m)
    ensures Shape(r, v, h)
    ensures forall d :: InBounds(v, h, d) ==> SteppedAt(g, r, m, d)
  {
    var g1 := Put(g, m, At(g, m).(isCenterZero := true, zeroMarked := false));
    var r := ExpandAround(g1, v, h, m);
    forall d | InBounds(v, h, d)
      ensures SteppedAt(g, r, m, d)
    {
      assert TouchedWhen(g1, r, Adjacent(m, d), d);
    }
    r
  }

  // ---------------------------------------------------------------------
  // The region a fill from `s` covers
  // ---------------------------------------------------------------------

  /** A walk through adjacent zero cells on the board. */
  ghost predicate ZeroPath(g: Cells, v: nat, h: nat, p: seq<Coord>)
    requires Shape(g, v, h)
  {
    && |p| > 0
    && (forall i :: 0 <= i < |p| ==> InBounds(v, h, p[i]) && IsZero(At(g, p[i]).kind))
    && (forall i :: 0 <= i < |p| - 1 ==> Adjacent(p[i], p[i + 1]))
  }

  /** `c` can be reached from `s` through zero cells. */
  ghost predicate Reach(g: Cells, v: nat, h: nat, s: Coord, c: Coord)
    requires Shape(g, v, h)
  {
    exists p :: ZeroPath(g, v, h, p) && p[0] == s && p[|p| - 1] == c
  }

  /** The cells a fill from `s` opens: the zero region of `s` and its border. */
  ghost predicate InFloodArea(g: Cells, v: nat, h: nat, s: Coord, c: Coord)
    requires Shape(g, v, h)
  {
    && InBounds(v, h, c)
    && (Reach(g, v, h, s, c) || exists d :: Adjacent(d, c) && Reach(g, v, h, s, d))
  }

  lemma ReachStart(g: Cells, v: nat, h: nat, s: Coord)
    requires Shape(g, v, h) && InBounds(v, h, s) && IsZero(At(g, s).kind)
    ensures Reach(g, v, h, s, s)
  {
    assert ZeroPath(g, v, h, [s]);
  }

  lemma ReachIsZero(g: Cells, v: nat, h: nat, s: Coord, c: Coord)
    requires Shape(g, v, h) && Reach(g, v, h, s, c)
    ensures InBounds(v, h, c) && IsZero(At(g, c).kind)
  {
    var p :| ZeroPath(g, v, h, p) && p[0] == s && p[|p| - 1] == c;
    assert InBounds(v, h, p[|p| - 1]) && IsZero(At(g, p[|p| - 1]).kind);
  }

  /** A zero neighbour of a reachable cell is reachable. */
  lemma ReachExtend(g: Cells, v: nat, h: nat, s: Coord, c: Coord, d: Coord)
    requires Shape(g, v, h) && Reach(g, v, h, s, c)
    requires Adjacent(c, d) && InBounds(v, h, d) && IsZero(At(g, d).kind)
    ensures Reach(g, v, h, s, d)
  {
    var p :| ZeroPath(g, v, h, p) && p[0] == s && p[|p| - 1] == c;
    var q := p + [d];
    forall i | 0 <= i < |q|
      ensures InBounds(v, h, q[i]) && IsZero(At(g, q[i]).kind)
    {
      if i < |p| {
        assert q[i] == p[i];
      }
    }
    forall i | 0 <= i < |q| - 1
      ensures Adjacent(q[i], q[i + 1])
    {
      if i < |p| - 1 {
        assert q[i] == p[i] && q[i + 1] == p[i + 1];
      }
    }
    assert ZeroPath(g, v, h, q);
  }

  // ---------------------------------------------------------------------
  // Loop invariants
  // ---------------------------------------------------------------------

  /** The fill starts from a zero cell with nothing queued. */
  ghost predicate FreshStart(g0: Cells, v: nat, h: nat, s: Coord) {
    && Shape(g0, v, h) && InBounds(v, h, s)
    && NoMarks(g0, v, h) && IsZero(At(g0, s).kind)
  }

  /** Every centre is open. */
  ghost predicate CentresOpened(g: Cells, v: nat, h: nat)
    requires Shape(g, v, h)
  {
    forall c :: InBounds(v, h, c) && At(g, c).isCenterZero ==> At(g, c).isOpened
  }

  /** Every neighbour of `c` is open, and each zero neighbour is a centre or queued. */
  ghost predicate ExpandedAt(g: Cells, v: nat, h: nat, c: Coord)
    requires Shape(g, v, h)
  {
    forall d :: InBounds(v, h, d) && Adjacent(c, d) ==>
      At(g, d).isOpened && (IsZero(At(g, d).kind) ==> At(g, d).isCenterZero || At(g, d).zeroMarked)
  }

  ghost predicate CentresExpanded(g: Cells, v: nat, h: nat)
    requires Shape(g, v, h)
  {
    forall c :: InBounds(v, h, c) && At(g, c).isCenterZero ==> ExpandedAt(g, v, h, c)
  }

  /**
   * The start state the component produces: nothing queued, the start an
   * opened zero, and every earlier centre opened and fully expanded.
   */
  ghost predicate SettledStart(g0: Cells, v: nat, h: nat, s: Coord) {
    && FreshStart(g0, v, h, s)
    && CentresOpened(g0, v, h) && CentresExpanded(g0, v, h)
    && At(g0, s).isOpened
  }

  /** Queued cells are open, not yet centres, and reachable from the start. */
  ghost predicate MarksSound(g0: Cells, g: Cells, v: nat, h: nat, s: Coord)
    requires Shape(g0, v, h) && Shape(g, v, h)
  {
    forall c :: InBounds(v, h, c) && At(g, c).zeroMarked ==>
      !At(g, c).isCenterZero && At(g, c).isOpened && Reach(g0, v, h, s, c)
  }

  /** Only reachable zeros became centres; only cells of the flood area were opened. */
  ghost predicate ChangesSound(g0: Cells, g: Cells, v: nat, h: nat, s: Coord)
    requires Shape(g0, v, h) && Shape(g, v, h)
  {
    forall c :: InBounds(v, h, c) ==> NewIsInArea(g0, g, v, h, s, c)
  }

  ghost predicate NewIsInArea(g0: Cells, g: Cells, v: nat, h: nat, s: Coord, c: Coord)
    requires Shape(g0, v, h) && Shape(g, v, h) && InBounds(v, h, c)
  {
    && (At(g, c).isCenterZero && !At(g0, c).isCenterZero ==> Reach(g0, v, h, s, c))
    && (At(g, c).isOpened && !At(g0, c).isOpened ==> InFloodArea(g0, v, h, s, c))
  }

  lemma StepGrows(g: Cells, v: nat, h: nat, m: Coord)
    requires Shape(g, v, h) && InBounds(v, h, m)
    ensures GrownGrid(g, Step(g, v, h, m), v, h)
  {
    var r := Step(g, v, h, m);
    forall d | InBounds(v, h, d)
      ensures Grown(At(g, d), At(r, d))
    {
      assert SteppedAt(g, r, m, d);
    }
  }

  /** Queued or centred, a cell other than the new centre keeps its status. */
  lemma StepKeepsQueue(g: Cells, v: nat, h: nat, m: Coord, d: Coord)
    requires Shape(g, v, h) && InBounds(v, h, m) && InBounds(v, h, d) && d != m
    ensures var r := Step(g, v, h, m);
      && At(r, d).isCenterZero == At(g, d).isCenterZero
      && (At(r, d).zeroMarked ==> At(g, d).zeroMarked || (Adjacent(m, d) && IsZero(At(g, d).kind) && !At(g, d).isCenterZero))
      && (At(g, d).zeroMarked && !At(g, d).isCenterZero && IsZero(At(g, d).kind) ==> At(r, d).zeroMarked)
      && (At(r, d).isOpened && !At(g, d).isOpened ==> Adjacent(m, d))
      && (Adjacent(m, d) ==> At(r, d).isOpened || At(g, d).isCenterZero)
  {
    assert SteppedAt(g, Step(g, v, h, m), m, d);
  }

  lemma StepSound(g0: Cells, g: Cells, v: nat, h: nat, s: Coord, m: Coord)
    requires FreshStart(g0, v, h, s) && GrownGrid(g0, g, v, h)
    requires MarksSound(g0, g, v, h, s) && ChangesSound(g0, g, v, h, s)
    requires InBounds(v, h, m) && Reach(g0, v, h, s, m)
    ensures MarksSound(g0, Step(g, v, h, m), v, h, s) && ChangesSound(g0, Step(g, v, h, m), v, h, s)
  {
    var r := Step(g, v, h, m);
    StepGrows(g, v, h, m);
    forall c | InBounds(v, h, c) && At(r, c).zeroMarked
      ensures !At(r, c).isCenterZero && At(r, c).isOpened && Reach(g0, v, h, s, c)
    {
      assert SteppedAt(g, r, m, c);
      StepKeepsQueue(g, v, h, m, c);
      assert Grown(At(g0, c), At(g, c));
      if !At(g, c).zeroMarked {
        ReachExtend(g0, v, h, s, m, c);
      }
    }
    forall c | InBounds(v, h, c)
      ensures NewIsInArea(g0, g, v, h, s, c) ==> NewIsInArea(g0, r, v, h, s, c)
    {
      if c != m {
        StepKeepsQueue(g, v, h, m, c);
      } else {
        assert SteppedAt(g, r, m, c);
      }
    }
  }

  lemma StepSettled(g0: Cells, g: Cells, v: nat, h: nat, m: Coord)
    requires Shape(g, v, h) && InBounds(v, h, m) && At(g, m).isOpened
    requires CentresOpened(g, v, h) && CentresExpanded(g, v, h)
    ensures CentresOpened(Step(g, v, h, m), v, h) && CentresExpanded(Step(g, v, h, m), v, h)
  {
    var r := Step(g, v, h, m);
    StepGrows(g, v, h, m);
    forall c | InBounds(v, h, c) && At(r, c).isCenterZero
      ensures At(r, c).isOpened
    {
      assert SteppedAt(g, r, m, c);
      assert Grown(At(g, c), At(r, c));
    }
    forall c | InBounds(v, h, c) && At(r, c).isCenterZero
      ensures ExpandedAt(r, v, h, c)
    {
      forall d | InBounds(v, h, d) && Adjacent(c, d)
        ensures At(r, d).isOpened && (IsZero(At(r, d).kind) ==> At(r, d).isCenterZero || At(r, d).zeroMarked)
      {
        assert SteppedAt(g, r, m, c);
        assert SteppedAt(g, r, m, d);
        assert Grown(At(g, d), At(r, d));
        if c != m {
          assert ExpandedAt(g, v, h, c);
          if d != m {
            StepKeepsQueue(g, v, h, m, d);
          }
        }
      }
    }
  }

  /** A cell that is neither a centre nor queued, and queued centres. */
  predicate IsUncentred(a: Cell) {
    !a.isCenterZero
  }

  predicate IsQueuedCentre(a: Cell) {
    a.zeroMarked && a.isCenterZero
  }

  /** Each pass either makes a new centre or retires a queued one. */
  lemma StepMeasure(g: Cells, v: nat, h: nat, m: Coord)
    requires Shape(g, v, h) && InBounds(v, h, m)
    ensures var r := Step(g, v, h, m);
      && Matching(r, v, h, IsUncentred) <= Matching(g, v, h, IsUncentred)
      && (!At(g, m).isCenterZero ==> Matching(r, v, h, IsUncentred) < Matching(g, v, h, IsUncentred))
      && (At(g, m).isCenterZero ==> Matching(r, v, h, IsUncentred) == Matching(g, v, h, IsUncentred))
      && Matching(r, v, h, IsQueuedCentre) <= Matching(g, v, h, IsQueuedCentre) - {m}
  {
    var r := Step(g, v, h, m);
    assert SteppedAt(g, r, m, m);
    forall d | InBounds(v, h, d) && d != m
      ensures At(r, d).isCenterZero == At(g, d).isCenterZero
      ensures IsQueuedCentre(At(r, d)) ==> IsQueuedCentre(At(g, d))
    {
      StepKeepsQueue(g, v, h, m, d);
    }
  }

  /** With nothing queued, the centres hold every cell reachable from a centred start. */
  lemma ReachClosed(g0: Cells, g: Cells, v: nat, h: nat, s: Coord, c: Coord)
    requires GrownGrid(g0, g, v, h) && NoMarks(g, v, h) && CentresExpanded(g, v, h)
    requires InBounds(v, h, s) && At(g, s).isCenterZero && Reach(g0, v, h, s, c)
    ensures At(g, c).isCenterZero
  {
    var p :| ZeroPath(g0, v, h, p) && p[0] == s && p[|p| - 1] == c;
    var i := 0;
    while i < |p| - 1
      invariant 0 <= i < |p| && At(g, p[i]).isCenterZero
    {
      assert ExpandedAt(g, v, h, p[i]);
      assert Adjacent(p[i], p[i + 1]) && InBounds(v, h, p[i + 1]);
      assert Grown(At(g0, p[i + 1]), At(g, p[i + 1]));
      i := i + 1;
    }
  }

  /** Cell `c` is open exactly when it was, or when it lies in the flood area. */
  ghost predicate OpenedExactly(g0: Cells, g: Cells, v: nat, h: nat, s: Coord, c: Coord)
    requires Shape(g0, v, h) && Shape(g, v, h) && InBounds(v, h, c)
  {
    && (At(g, c).isOpened <==> At(g0, c).isOpened || InFloodArea(g0, v, h, s, c))
    && (At(g, c).isCenterZero <==> At(g0, c).isCenterZero || Reach(g0, v, h, s, c))
  }

  /**
   * `_openCellsAroundZero` from the cell `s`. Whatever the grid, it only
   * opens cells and makes centres, and it stops with nothing queued. From a
   * zero with nothing queued it only touches the flood area of `s`; from the
   * state the component keeps it opens exactly that area.
   */
  method OpenCellsAroundZero(g0: Cells, v: nat, h: nat, s: Coord) returns (g: Cells)
    requires Shape(g0, v, h) && InBounds(v, h, s)
    ensures GrownGrid(g0, g, v, h)
    ensures NoMarks(g, v, h) && At(g, s).isCenterZero
    ensures FreshStart(g0, v, h, s) ==> ChangesSound(g0, g, v, h, s)
    ensures SettledStart(g0, v, h, s) ==>
              CentresOpened(g, v, h) && CentresExpanded(g, v, h)
              && forall c :: InBounds(v, h, c) ==> OpenedExactly(g0, g, v, h, s, c)
  {
    g := g0;
    var next: Option<Coord> := Some(s);
    var first := true;
    if FreshStart(g0, v, h, s) {
      ReachStart(g0, v, h, s);
    }
    while next.Some?
      invariant GrownGrid(g0, g, v, h)
      invariant first ==> g == g0 && next == Some(s)
      invariant !first ==> next == FindCellData(g, v, h, IsZeroMarked) && At(g, s).isCenterZero
      invariant FreshStart(g0, v, h, s) ==> MarksSound(g0, g, v, h, s) && ChangesSound(g0, g, v, h, s)
      invariant FreshStart(g0, v, h, s) ==> Reach(g0, v, h, s, s)
      invariant SettledStart(g0, v, h, s) ==> CentresOpened(g, v, h) && CentresExpanded(g, v, h)
      decreases Matching(g, v, h, IsUncentred), Matching(g, v, h, IsQueuedCentre), if first then 1 else 0
    {
      var m := next.value;
      var r := Step(g, v, h, m);
      StepGrows(g, v, h, m);
      GrownTrans(g0, g, r, v, h);
      StepMeasure(g, v, h, m);
      if FreshStart(g0, v, h, s) {
        StepSound(g0, g, v, h, s, m);
      }
      if SettledStart(g0, v, h, s) {
        StepSettled(g0, g, v, h, m);
      }
      assert SteppedAt(g, r, m, s);
      g := r;
      first := false;
      next := FindCellData(g, v, h, IsZeroMarked);
    }
    if SettledStart(g0, v, h, s) {
      forall c | InBounds(v, h, c)
        ensures OpenedExactly(g0, g, v, h, s, c)
      {
        FillCovers(g0, g, v, h, s, c);
      }
    }
  }

  /** At the end of a fill from a settled start, the flood area is open and the zero region centred. */
  lemma FillCovers(g0: Cells, g: Cells, v: nat, h: nat, s: Coord, c: Coord)
    requires SettledStart(g0, v, h, s) && GrownGrid(g0, g, v, h) && InBounds(v, h, c)
    requires NoMarks(g, v, h) && At(g, s).isCenterZero
    requires ChangesSound(g0, g, v, h, s) && CentresOpened(g, v, h) && CentresExpanded(g, v, h)
    ensures OpenedExactly(g0, g, v, h, s, c)
  {
    assert NewIsInArea(g0, g, v, h, s, c);
    assert Grown(At(g0, c), At(g, c));
    if Reach(g0, v, h, s, c) {
      ReachClosed(g0, g, v, h, s, c);
    }
    if InFloodArea(g0, v, h, s, c) && !Reach(g0, v, h, s, c) {
      var d :| Adjacent(d, c) && Reach(g0, v, h, s, d);
      ReachIsZero(g0, v, h, s, d);
      ReachClosed(g0, g, v, h, s, d);
      assert ExpandedAt(g, v, h, d);
    }
  }
}

=== FILE: game_service.dfy ===
/**
 * The game service (game.service.ts): it owns the mine layout, the counter of
 * cells still to open and the game status. Mines are placed lazily, after the
 * first click, by rejection sampling over a stream of random draws.
 */
module GameService {
  import opened Wrappers
  import opened Grid
  import opened Enums
  import opened Layout
  import MineText

  /** The service's state for one game. */
  datatype Service = Service(
    vertical: nat,
    horizontal: nat,
    minesLenght: nat,
    board: MineBoard,
    minesPositions: seq<Coord>,
    remainingEmptyCells: int,
    gameStatus: GameStatus,
    isFirstClickInCell: bool)

  // ---------------------------------------------------------------------
  // The empty board
  // ---------------------------------------------------------------------

  /** `_generateEmptyBoard`: `v` rows of `h` zeros. */
  function GenerateEmptyBoard(v: nat, h: nat): (b: MineBoard)
    ensures Shape(b, v, h) && AllZero(b, v, h)
    ensures MineCells(b, v, h) == {}
    ensures Numbered(b, v, h)
  {
    var b := seq(v, _ => seq(h, _ => Num(0)));
    assert forall c :: InBounds(v, h, c) ==> At(b, c) == Num(0);
    b
  }

  /**
   * The service as its field initialisers leave it: a 9 by 9 setting with 10
   * mines, no board or positions yet, `NotStarted`, and the first click
   * armed. The counter subject does not exist yet; 0 stands for it.
   */
  const Constructed: Service := Service(9, 9, 10, [], [], 0, NotStarted, true)

  /**
   * `newEmptyBoard`: an all-zero board, a counter equal to the number of cells
   * that will stay free of mines, and the status `NotStarted`. The chosen
   * positions and the first-click flag are left as they were.
   */
  function NewEmptyBoard(s: Service, v: nat, h: nat, m: nat): (r: Service)
    ensures r.vertical == v && r.horizontal == h && r.minesLenght == m
    ensures Shape(r.board, v, h) && AllZero(r.board, v, h) && MineCells(r.board, v, h) == {}
    ensures r.remainingEmptyCells == |AllCells(v, h)| - m
    ensures r.gameStatus == NotStarted
    ensures r.minesPositions == s.minesPositions && r.isFirstClickInCell == s.isFirstClickInCell
  {
    AllCellsCard(v, h);
    s.(vertical := v, horizontal := h, minesLenght := m, board := GenerateEmptyBoard(v, h),
       remainingEmptyCells := v * h - m, gameStatus := NotStarted)
  }

  // ---------------------------------------------------------------------
  // Drawing the mine positions
  // ---------------------------------------------------------------------

  /** What the generator must deliver: `m` distinct in-bounds positions, none of them the first click. */
  ghost predicate ValidPositions(ps: seq<Coord>, v: nat, h: nat, m: nat, first: Coord) {
    && |ps| == m
    && Distinct(ps)
    && forall p :: p in ps ==> InBounds(v, h, p) && p != first
  }

  /** A prefix of the positions the generator has accepted so far. */
  ghost predicate ValidPrefix(ps: seq<Coord>, v: nat, h: nat, m: nat, first: Coord) {
    && |ps| <= m
    && Distinct(ps)
    && forall p :: p in ps ==> InBounds(v, h, p) && p != first
  }

  /** `_isDifferentFromFirstCellOpened`. */
  predicate IsDifferentFromFirstCellOpened(cell: Coord, first: Coord) {
    cell.y != first.y || cell.x != first.x
  }

  /** The duplicate test as intended: exact membership among the chosen positions. */
  predicate IsAlreadyAMine(chosen: seq<Coord>, cell: Coord) {
    cell in chosen
  }

  /**
   * The loop of `_generateMinesPositions`, parameterised by its duplicate test:
   * draw `[y, x]`, keep it when the test does not reject it and it is not the
   * first click, stop once `m` positions are kept. The draws stand for the
   * successive `_getRandomInt` results; `None` means the stream ran out first,
   * where the source would go on drawing.
   */
  function RejectionSample(taken: (seq<Coord>, Coord) -> bool, m: nat, first: Coord,
                           draws: seq<Coord>, chosen: seq<Coord>): Option<seq<Coord>>
    decreases |draws|
  {
    if |chosen| >= m then Some(chosen)
    else if |draws| == 0 then None
    else if !taken(chosen, draws[0]) && IsDifferentFromFirstCellOpened(draws[0], first) then
      RejectionSample(taken, m, first, draws[1..], chosen + [draws[0]])
    else
      RejectionSample(taken, m, first, draws[1..], chosen)
  }

  /**
   * Whatever the duplicate test, as long as it rejects every position already
   * chosen, a finished sampling delivers valid positions that extend `chosen`.
   */
  lemma {:induction false} SampleIsValid(taken: (seq<Coord>, Coord) -> bool, v: nat, h: nat, m: nat,
                                         first: Coord, draws: seq<Coord>, chosen: seq<Coord>)
    requires forall cs, c :: c in cs ==> taken(cs, c)
    requires forall d :: d in draws ==> InBounds(v, h, d)
    requires ValidPrefix(chosen, v, h, m, first)
    ensures var r := RejectionSample(taken, m, first, draws, chosen);
            r.Some? ==> ValidPositions(r.value, v, h, m, first) && chosen <= r.value
    decreases |draws|
  {
    if |chosen| < m && |draws| > 0 {
      var d := draws[0];
      if !taken(chosen, d) && IsDifferentFromFirstCellOpened(d, first) {
        assert d !in chosen;
        var next := chosen + [d];
        assert ValidPrefix(next, v, h, m, first);
        SampleIsValid(taken, v, h, m, first, draws[1..], next);
      } else {
        SampleIsValid(taken, v, h, m, first, draws[1..], chosen);
      }
    }
  }

  /** `_generateMinesPositions` with the intended duplicate test. */
  function GenerateMinesPositions(m: nat, v: nat, h: nat, first: Coord, draws: seq<Coord>): (r: Option<seq<Coord>>)
    requires forall d :: d in draws ==> InBounds(v, h, d)
    ensures r.Some? ==> ValidPositions(r.value, v, h, m, first)
  {
    SampleIsValid(IsAlreadyAMine, v, h, m, first, draws, []);
    RejectionSample(IsAlreadyAMine, m, first, draws, [])
  }

  /**
   * Valid positions need a free cell per mine besides the first click, so
   * with `m >= v*h` no draw stream lets the generator finish: the source's
   * `while` never ends and the first click never opens.
   */
  lemma NoRoomForMines(m: nat, v: nat, h: nat, first: Coord, draws: seq<Coord>, ps: seq<Coord>)
    requires InBounds(v, h, first) && forall d :: d in draws ==> InBounds(v, h, d)
    ensures ValidPositions(ps, v, h, m, first) ==> m < v * h
    ensures m >= v * h ==> GenerateMinesPositions(m, v, h, first, draws).None?
  {
    if ValidPositions(ps, v, h, m, first) {
      DistinctCard(ps);
      SubsetCard(Elements(ps), AllCells(v, h) - {first});
      AllCellsCard(v, h);
    }
    var r := GenerateMinesPositions(m, v, h, first, draws);
    if r.Some? {
      DistinctCard(r.value);
      SubsetCard(Elements(r.value), AllCells(v, h) - {first});
      AllCellsCard(v, h);
    }
  }

  /** `_generateMinesPositions` as written, with the text-based duplicate test. */
  function GenerateMinesPositionsAsWritten(m: nat, v: nat, h: nat, first: Coord, draws: seq<Coord>): (r: Option<seq<Coord>>)
    requires forall d :: d in draws ==> InBounds(v, h, d)
    ensures r.Some? ==> ValidPositions(r.value, v, h, m, first)
  {
    forall cs, c | c in cs
      ensures MineText.IsAlreadyAMineText(cs, c)
    {
      MineText.TextFindsEveryChosen(cs, c);
    }
    SampleIsValid(MineText.IsAlreadyAMineText, v, h, m, first, draws, []);
    RejectionSample(MineText.IsAlreadyAMineText, m, first, draws, [])
  }

  /** The distinct positions in `draws` that are neither chosen nor the first click. */
  function FreeDrawn(draws: seq<Coord>, chosen: seq<Coord>, first: Coord): set<Coord> {
    set d | d in draws && d !in chosen && d != first
  }

  /**
   * With exact membership the sampling finishes as soon as the stream has shown
   * it enough distinct free positions: every free position drawn is kept.
   */
  lemma {:induction false} SampleCompletes(m: nat, first: Coord, draws: seq<Coord>, chosen: seq<Coord>)
    requires |FreeDrawn(draws, chosen, first)| >= m - |chosen|
    ensures RejectionSample(IsAlreadyAMine, m, first, draws, chosen).Some?
    decreases |draws|
  {
    if |chosen| < m {
      var free := FreeDrawn(draws, chosen, first);
      if |draws| > 0 {
        var d := draws[0];
        if d !in chosen && IsDifferentFromFirstCellOpened(d, first) {
          var next := chosen + [d];
          var rest := FreeDrawn(draws[1..], next, first);
          assert free - {d} <= rest by {
            forall e | e in free - {d}
              ensures e in rest
            {
              assert e in draws[1..];
            }
          }
          SubsetCard(free - {d}, rest);
          SampleCompletes(m, first, draws[1..], next);
        } else {
          var rest := FreeDrawn(draws[1..], chosen, first);
          assert free <= rest by {
            forall e | e in free
              ensures e in rest
            {
              assert e in draws[1..];
            }
          }
          SubsetCard(free, rest);
          SampleCompletes(m, first, draws[1..], chosen);
        }
      }
    }
  }

  // ---------------------------------------------------------------------
  // Writing the mines and the numbers
  // ---------------------------------------------------------------------

  /** `_insertMines`: exactly the given positions are overwritten with the mine code. */
  function InsertMines(b: MineBoard, positions: seq<Coord>): (r: MineBoard)
    requires forall p :: p in positions ==> Inside(b, p)
    ensures |r| == |b| && forall y :: 0 <= y < |b| ==> |r[y]| == |b[y]|
    ensures forall d :: Inside(b, d) ==> At(r, d) == if d in positions then Mine else At(b, d)
    decreases |positions|
  {
    if |positions| == 0 then b
    else InsertMines(Put(b, positions[0], Mine), positions[1..])
  }

  /** One increment of `_updateBoardNumbers`: only in bounds and only on a number. */
  function BumpAt(b: MineBoard, v: nat, h: nat, d: Coord): MineBoard
    requires Shape(b, v, h)
  {
    if InBounds(v, h, d) && At(b, d).Num? then Put(b, d, Num(At(b, d).n + 1)) else b
  }

  /** The increments for the offsets `j..7` around the mine at `p`. */
  function BumpAroundFrom(b: MineBoard, v: nat, h: nat, p: Coord, j: nat): (r: MineBoard)
    requires Shape(b, v, h) && j <= |Offsets|
    ensures Shape(r, v, h)
    ensures forall d :: InBounds(v, h, d) ==>
              At(r, d) == if AroundFrom(p, j, d) && At(b, d).Num? then Num(At(b, d).n + 1) else At(b, d)
    decreases |Offsets| - j
  {
    if j == |Offsets| then b
    else
      var r := BumpAroundFrom(BumpAt(b, v, h, Around(p, j)), v, h, p, j + 1);
      forall d | InBounds(v, h, d)
        ensures At(r, d) == if AroundFrom(p, j, d) && At(b, d).Num? then Num(At(b, d).n + 1) else At(b, d)
      {
        AroundFromStep(p, j, d);
      }
      r
  }

  /** Every number next to the mine at `p` goes up by one; nothing else changes. */
  function BumpAround(b: MineBoard, v: nat, h: nat, p: Coord): (r: MineBoard)
    requires Shape(b, v, h)
    ensures Shape(r, v, h)
    ensures forall d :: InBounds(v, h, d) ==>
              At(r, d) == if Adjacent(p, d) && At(b, d).Num? then Num(At(b, d).n + 1) else At(b, d)
  {
    var r := BumpAroundFrom(b, v, h, p, 0);
    forall d | InBounds(v, h, d)
      ensures At(r, d) == if Adjacent(p, d) && At(b, d).Num? then Num(At(b, d).n + 1) else At(b, d)
    {
      AroundFromZero(p, d);
    }
    r
  }

  /** How many of `ps` are adjacent to `c`. */
  function CountAdjacent(ps: seq<Coord>, c: Coord): nat {
    if |ps| == 0 then 0
    else (if Adjacent(ps[0], c) then 1 else 0) + CountAdjacent(ps[1..], c)
  }

  /** Entry `d` of `r` is entry `d` of `b`, raised by the number of `ps` next to it when numeric. */
  predicate RaisedBy(b: MineBoard, r: MineBoard, ps: seq<Coord>, d: Coord)
    requires Inside(b, d) && Inside(r, d)
  {
    At(r, d) == if At(b, d).Num? then Num(At(b, d).n + CountAdjacent(ps, d)) else At(b, d)
  }

  /**
   * `_updateBoardNumbers`: every numeric entry grows by the number of listed
   * mines next to it; mine entries are left alone.
   */
  function UpdateBoardNumbers(b: MineBoard, v: nat, h: nat, ps: seq<Coord>): (r: MineBoard)
    requires Shape(b, v, h)
    ensures Shape(r, v, h)
    ensures forall d :: InBounds(v, h, d) ==> RaisedBy(b, r, ps, d)
    decreases |ps|
  {
    if |ps| == 0 then b
    else
      var b1 := BumpAround(b, v, h, ps[0]);
      var r := UpdateBoardNumbers(b1, v, h, ps[1..]);
      forall d | InBounds(v, h, d)
        ensures RaisedBy(b, r, ps, d)
      {
        assert RaisedBy(b1, r, ps[1..], d);
        assert CountAdjacent(ps, d) == (if Adjacent(ps[0], d) then 1 else 0) + CountAdjacent(ps[1..], d);
      }
      r
  }

  /** Among distinct positions, the adjacent ones counted one by one are the adjacent set. */
  lemma {:induction false} CountAdjacentIsCard(ps: seq<Coord>, c: Coord)
    requires Distinct(ps)
    ensures CountAdjacent(ps, c) == |set p | p in ps && Adjacent(p, c)|
  {
    var all := set p | p in ps && Adjacent(p, c);
    if |ps| == 0 {
      assert all == {};
    } else {
      CountAdjacentIsCard(ps[1..], c);
      var rest := set p | p in ps[1..] && Adjacent(p, c);
      assert ps[0] !in rest;
      if Adjacent(ps[0], c) {
        assert all == {ps[0]} + rest;
      } else {
        assert all == rest;
      }
    }
  }

  /**
   * `populateEmptyBoard`: writes the mines and then the numbers. On the empty
   * board with valid positions the result is consistently numbered, holds
   * exactly the chosen mines, and the first click is safe.
   */
  function PopulateEmptyBoard(s: Service, first: Coord, positions: seq<Coord>): (r: Service)
    requires Shape(s.board, s.vertical, s.horizontal)
    requires InBounds(s.vertical, s.horizontal, first)
    requires ValidPositions(positions, s.vertical, s.horizontal, s.minesLenght, first)
    ensures r == s.(board := r.board, minesPositions := positions)
    ensures Shape(r.board, s.vertical, s.horizontal)
    ensures forall c :: InBounds(s.vertical, s.horizontal, c) ==>
              (At(r.board, c) == Mine <==> At(s.board, c) == Mine || c in positions)
    ensures AllZero(s.board, s.vertical, s.horizontal) ==>
              && Numbered(r.board, s.vertical, s.horizontal)
              && MineCells(r.board, s.vertical, s.horizontal) == Elements(positions)
              && |MineCells(r.board, s.vertical, s.horizontal)| == s.minesLenght
              && At(r.board, first) != Mine
  {
    var v, h := s.vertical, s.horizontal;
    var withMines := InsertMines(s.board, positions);
    var b := UpdateBoardNumbers(withMines, v, h, positions);
    PopulatedIsNumbered(s.board, v, h, s.minesLenght, first, positions, b);
    s.(board := b, minesPositions := positions)
  }

  lemma PopulatedIsNumbered(b0: MineBoard, v: nat, h: nat, m: nat, first: Coord, positions: seq<Coord>, b: MineBoard)
    requires Shape(b0, v, h) && InBounds(v, h, first)
    requires ValidPositions(positions, v, h, m, first)
    requires b == UpdateBoardNumbers(InsertMines(b0, positions), v, h, positions)
    ensures AllZero(b0, v, h) ==>
              && Numbered(b, v, h)
              && MineCells(b, v, h) == Elements(positions)
              && |MineCells(b, v, h)| == m
              && At(b, first) != Mine
  {
    if !AllZero(b0, v, h) {
      return;
    }
    var withMines := InsertMines(b0, positions);
    MinesArePositions(b0, v, h, positions, b);
    var mines := MineCells(b, v, h);
    assert mines == Elements(positions);
    DistinctCard(positions);
    forall c | InBounds(v, h, c) && At(b, c).Num?
      ensures At(b, c).n == |AdjacentMines(b, v, h, c)|
    {
      assert At(withMines, c) == Num(0);
      assert RaisedBy(withMines, b, positions, c);
      CountAdjacentIsCard(positions, c);
      assert AdjacentMines(b, v, h, c) == set p | p in positions && Adjacent(p, c);
    }
  }

  lemma MinesArePositions(b0: MineBoard, v: nat, h: nat, positions: seq<Coord>, b: MineBoard)
    requires Shape(b0, v, h) && AllZero(b0, v, h)
    requires forall p :: p in positions ==> InBounds(v, h, p)
    requires b == UpdateBoardNumbers(InsertMines(b0, positions), v, h, positions)
    ensures forall c :: InBounds(v, h, c) ==> (At(b, c) == Mine <==> c in positions)
  {
    var withMines := InsertMines(b0, positions);
    forall c | InBounds(v, h, c)
      ensures At(b, c) == Mine <==> c in positions
    {
      assert At(withMines, c) == if c in positions then Mine else Num(0);
      assert RaisedBy(withMines, b, positions, c);
    }
  }

  // ---------------------------------------------------------------------
  // Counter and status
  // ---------------------------------------------------------------------

  /** `decreaseRemainingEmptyCells`: lowers the counter by exactly `value`, with no floor. */
  function DecreaseRemainingEmptyCells(s: Service, value: int): (r: Service)
    ensures r.remainingEmptyCells + value == s.remainingEmptyCells
    ensures r.(remainingEmptyCells := s.remainingEmptyCells) == s
  {
    s.(remainingEmptyCells := s.remainingEmptyCells - value)
  }

  /** `setRemainEmptyCells`: overwrites the counter whatever it held. */
  function SetRemainEmptyCells(s: Service, value: int): (r: Service)
    ensures r.remainingEmptyCells == value
    ensures r.(remainingEmptyCells := s.remainingEmptyCells) == s
  {
    s.(remainingEmptyCells := value)
  }

  /** `setGameStatus`: overwrites the status, terminal or not. */
  function SetGameStatus(s: Service, status: GameStatus): (r: Service)
    ensures r.gameStatus == status
    ensures r.(gameStatus := s.gameStatus) == s
  {
    s.(gameStatus := status)
  }

  /** There is no terminal-state guard: the last status written wins, even over `Won` or `Lost`. */
  lemma StatusLastWriterWins(s: Service, a: GameStatus, b: GameStatus)
    ensures SetGameStatus(SetGameStatus(s, a), b) == SetGameStatus(s, b)
    ensures SetGameStatus(SetGameStatus(s, Lost), Running).gameStatus == Running
  {
  }
}

=== FILE: grid.dfy ===
/**
 * Coordinates, the Moore neighbourhood and rectangular matrices, shared by the
 * game service (the mine layout) and the board component (the cell overlay).
 */
module Grid {

  /** A cell position `[y, x]`: row first, then column. */
  datatype Coord = Coord(y: int, x: int)

  /** `_isThereCellAround`: the position lies inside a `v` x `h` grid. */
  predicate InBounds(v: nat, h: nat, c: Coord) {
    0 <= c.y < v && 0 <= c.x < h
  }

  /** Two distinct positions whose rows and columns differ by at most one. */
  predicate Adjacent(a: Coord, b: Coord) {
    a != b && -1 <= a.y - b.y <= 1 && -1 <= a.x - b.x <= 1
  }

  /**
   * The eight Moore offsets, in the order the engine visits them. The source
   * imports them from a constants file that is not part of this model. The
   * row-major order used here decides the order in which a chord visits the
   * neighbours: which mine it skips, and which mines are already open when
   * a zero neighbour's fill recounts the opened cells.
   */
  const Offsets: seq<Coord> :=
    [Coord(-1, -1), Coord(-1, 0), Coord(-1, 1),
     Coord(0, -1), Coord(0, 1),
     Coord(1, -1), Coord(1, 0), Coord(1, 1)]

  /** `_getCellAroundCoordByCenterCellCoord`: the `i`-th neighbour of `c`. */
  function Around(c: Coord, i: nat): (r: Coord)
    requires i < |Offsets|
    ensures Adjacent(c, r)
  {
    Coord(c.y + Offsets[i].y, c.x + Offsets[i].x)
  }

  /** The offset index that leads from `c` to its neighbour `d`. */
  function OffsetIndex(c: Coord, d: Coord): (i: nat)
    requires Adjacent(c, d)
    ensures i < |Offsets| && Around(c, i) == d
  {
    var k := 3 * (d.y - c.y + 1) + (d.x - c.x + 1);
    if k < 4 then k else k - 1
  }

  /** Different offsets lead to different neighbours. */
  lemma AroundInjective(c: Coord, i: nat, j: nat)
    requires i < |Offsets| && j < |Offsets| && i != j
    ensures Around(c, i) != Around(c, j)
  {
  }

  /** `d` is one of the neighbours the offsets `lo..7` lead to from `c`. */
  predicate AroundFrom(c: Coord, lo: nat, d: Coord) {
    exists k :: lo <= k < |Offsets| && Around(c, k) == d
  }

  /** From index 0, the offsets reach exactly the adjacent positions. */
  lemma AroundFromZero(c: Coord, d: Coord)
    ensures AroundFrom(c, 0, d) <==> Adjacent(c, d)
  {
    if Adjacent(c, d) {
      var i := OffsetIndex(c, d);
      assert Around(c, i) == d;
    }
  }

  /** The neighbour at index `lo` is reached by no later offset. */
  lemma AroundFromStep(c: Coord, lo: nat, d: Coord)
    requires lo < |Offsets|
    ensures AroundFrom(c, lo, d) <==> (Around(c, lo) == d || AroundFrom(c, lo + 1, d))
    ensures Around(c, lo) == d ==> !AroundFrom(c, lo + 1, d)
  {
    if Around(c, lo) == d {
      forall k | lo + 1 <= k < |Offsets|
        ensures Around(c, k) != d
      {
        AroundInjective(c, lo, k);
      }
    }
  }

  // ---------------------------------------------------------------------
  // Rectangular matrices, indexed `[y][x]`
  // ---------------------------------------------------------------------

  /** `g` has `v` rows of `h` entries each. */
  predicate Shape<T>(g: seq<seq<T>>, v: nat, h: nat) {
    |g| == v && forall y :: 0 <= y < v ==> |g[y]| == h
  }

  /** `c` indexes an entry of `g`. */
  predicate Inside<T>(g: seq<seq<T>>, c: Coord) {
    0 <= c.y < |g| && 0 <= c.x < |g[c.y]|
  }

  function At<T>(g: seq<seq<T>>, c: Coord): T
    requires Inside(g, c)
  {
    g[c.y][c.x]
  }

  /** Replaces the entry at `c`; every other entry and the shape stay. */
  function Put<T>(g: seq<seq<T>>, c: Coord, t: T): (r: seq<seq<T>>)
    requires Inside(g, c)
    ensures |r| == |g| && forall y :: 0 <= y < |g| ==> |r[y]| == |g[y]|
    ensures forall d :: Inside(r, d) <==> Inside(g, d)
    ensures forall d :: Inside(g, d) ==> At(r, d) == if d == c then t else At(g, d)
  {
    g[c.y := g[c.y][c.x := t]]
  }

  /** The positions of a `v` x `h` grid. */
  function AllCells(v: nat, h: nat): (r: set<Coord>)
    ensures forall c :: c in r <==> InBounds(v, h, c)
  {
    set y: int, x: int | 0 <= y < v && 0 <= x < h :: Coord(y, x)
  }

  /** The positions of row `y` with a column below `h`. */
  function RowCells(y: int, h: nat): (r: set<Coord>)
    ensures forall c :: c in r <==> c.y == y && 0 <= c.x < h
  {
    set x: int | 0 <= x < h :: Coord(y, x)
  }

  lemma {:induction false} RowCellsCard(y: int, h: nat)
    ensures |RowCells(y, h)| == h
  {
    if h > 0 {
      RowCellsCard(y, h - 1);
      assert RowCells(y, h) == RowCells(y, h - 1) + {Coord(y, h - 1)};
    } else {
      assert RowCells(y, h) == {};
    }
  }

  /** The grid of `v` rows is the grid of `v - 1` rows plus its last row. */
  lemma AllCellsSplit(v: nat, h: nat)
    requires v > 0
    ensures AllCells(v, h) == AllCells(v - 1, h) + RowCells(v - 1, h)
    ensures AllCells(v - 1, h) !! RowCells(v - 1, h)
  {
    var upper, row := AllCells(v - 1, h), RowCells(v - 1, h);
    forall c | c in AllCells(v, h)
      ensures c in upper + row
    {
      if c.y < v - 1 { assert c in upper; } else { assert c in row; }
    }
  }

  /** A `v` x `h` grid has `v * h` positions. */
  lemma {:induction false} AllCellsCard(v: nat, h: nat)
    ensures |AllCells(v, h)| == v * h
  {
    if v > 0 {
      AllCellsCard(v - 1, h);
      RowCellsCard(v - 1, h);
      AllCellsSplit(v, h);
      assert (v - 1) * h + h == v * h;
    } else {
      assert AllCells(v, h) == {};
    }
  }

  // ---------------------------------------------------------------------
  // Sequences without repetition
  // ---------------------------------------------------------------------

  predicate Distinct<T(==)>(s: seq<T>) {
    forall i, j :: 0 <= i < j < |s| ==> s[i] != s[j]
  }

  function Elements<T(==)>(s: seq<T>): set<T> {
    set x | x in s
  }

  /** A sequence without repetition has as many elements as entries. */
  lemma {:induction false} DistinctCard<T>(s: seq<T>)
    requires Distinct(s)
    ensures |Elements(s)| == |s|
  {
    if |s| > 0 {
      DistinctCard(s[1..]);
      assert Elements(s) == {s[0]} + Elements(s[1..]);
      assert s[0] !in Elements(s[1..]);
    } else {
      assert Elements(s) == {};
    }
  }

  lemma SubsetCard<T>(a: set<T>, b: set<T>)
    requires a <= b
    ensures |a| <= |b|
  {
    assert b == a + (b - a);
  }
}

=== FILE: layout.dfy ===
/**
 * The mine layout the game service builds (`GameService._board`) and the
 * reference meaning of its numbers: every numeric entry counts the mines among
 * its in-bounds Moore neighbours.
 */
module Layout {
  import opened Grid
  import opened Enums

  /** `number[][] | any[][]` in the source: a mine code or a number per cell. */
  type MineBoard = seq<seq<CellValue>>

  /** Every entry of the grid is the number zero. */
  ghost predicate AllZero(b: MineBoard, v: nat, h: nat)
    requires Shape(b, v, h)
  {
    forall c :: InBounds(v, h, c) ==> At(b, c) == Num(0)
  }

  /** The positions that hold the mine code. */
  function MineCells(b: MineBoard, v: nat, h: nat): (r: set<Coord>)
    requires Shape(b, v, h)
    ensures forall c :: c in r <==> InBounds(v, h, c) && At(b, c) == Mine
  {
    set c | c in AllCells(v, h) && At(b, c) == Mine
  }

  /** The mines adjacent to `c`; grid edges cut the neighbourhood, nothing wraps. */
  function AdjacentMines(b: MineBoard, v: nat, h: nat, c: Coord): (r: set<Coord>)
    requires Shape(b, v, h)
    ensures forall d :: d in r <==> d in MineCells(b, v, h) && Adjacent(d, c)
  {
    set d | d in MineCells(b, v, h) && Adjacent(d, c)
  }

  /** The layout invariant: every numeric entry equals its count of adjacent mines. */
  ghost predicate Numbered(b: MineBoard, v: nat, h: nat) {
    && Shape(b, v, h)
    && forall c :: InBounds(v, h, c) && At(b, c).Num? ==> At(b, c).n == |AdjacentMines(b, v, h, c)|
  }

  /** The neighbours the offsets `lo..7` lead to from `c`. */
  function NeighboursFrom(c: Coord, lo: nat): (r: set<Coord>)
    requires lo <= |Offsets|
    ensures |r| <= |Offsets| - lo
    ensures forall d :: d in r <==> AroundFrom(c, lo, d)
    decreases |Offsets| - lo
  {
    if lo == |Offsets| then {}
    else
      var rest := NeighboursFrom(c, lo + 1);
      forall d ensures d in {Around(c, lo)} + rest <==> AroundFrom(c, lo, d) {
        AroundFromStep(c, lo, d);
      }
      {Around(c, lo)} + rest
  }

  /** On a consistently numbered layout every number lies in `0..8`. */
  lemma NumberedBounds(b: MineBoard, v: nat, h: nat, c: Coord)
    requires Numbered(b, v, h) && InBounds(v, h, c) && At(b, c).Num?
    ensures 0 <= At(b, c).n <= 8
  {
    AdjacentSetBound(AdjacentMines(b, v, h, c), c);
  }

  /** At most eight positions are adjacent to one position. */
  lemma AdjacentSetBound(s: set<Coord>, c: Coord)
    requires forall d :: d in s ==> Adjacent(d, c)
    ensures |s| <= 8
  {
    var around := NeighboursFrom(c, 0);
    forall d | d in s
      ensures d in around
    {
      AdjacentInNeighbours(c, d);
    }
    SubsetCard(s, around);
  }

  lemma AdjacentInNeighbours(c: Coord, d: Coord)
    requires Adjacent(d, c)
    ensures d in NeighboursFrom(c, 0)
  {
    AroundFromZero(c, d);
  }

  /** A zero on a consistently numbered layout has no mine next to it. */
  lemma ZeroHasNoAdjacentMine(b: MineBoard, v: nat, h: nat, c: Coord, d: Coord)
    requires Numbered(b, v, h) && InBounds(v, h, c) && At(b, c) == Num(0)
    requires InBounds(v, h, d) && Adjacent(d, c)
    ensures At(b, d) != Mine
  {
  }
}

=== FILE: mine_text.dfy ===
/**
 * The duplicate test the game service uses while drawing mine positions: it
 * joins the positions chosen so far into one string and looks for the
 * candidate's text inside it (game.service.ts, `_isAlreadyAMine`). Positions
 * print as JavaScript prints an array of two integers, `"y,x"`.
 */
module MineText {
  import opened Grid

  function Digit(d: int): char
    requires 0 <= d < 10
  {
    "0123456789"[d]
  }

  /** The decimal text of an integer, as `Number.prototype.toString` writes it. */
  function Decimal(n: int): (s: string)
    ensures |s| > 0
    decreases if n < 0 then 1 - n else n
  {
    if n < 0 then "-" + Decimal(-n)
    else if n < 10 then [Digit(n)]
    else Decimal(n / 10) + [Digit(n % 10)]
  }

  /** `[y, x].toString()`. */
  function CoordText(c: Coord): string {
    Decimal(c.y) + "," + Decimal(c.x)
  }

  /** `positions.join(' ')`. */
  function JoinText(cs: seq<Coord>): string {
    if |cs| == 0 then ""
    else if |cs| == 1 then CoordText(cs[0])
    else CoordText(cs[0]) + " " + JoinText(cs[1..])
  }

  /** `s.includes(t)`: `t` occurs in `s` as a contiguous piece. */
  predicate Includes(s: string, t: string) {
    exists i :: 0 <= i <= |s| - |t| && OccursAt(s, t, i)
  }

  predicate OccursAt(s: string, t: string, i: int)
    requires 0 <= i <= |s| - |t|
  {
    s[i..i + |t|] == t
  }

  /** `_isAlreadyAMine` as written: a substring search over the joined text. */
  predicate IsAlreadyAMineText(chosen: seq<Coord>, c: Coord) {
    Includes(JoinText(chosen), CoordText(c))
  }

  /** The text test never misses a position that really was chosen. */
  lemma {:induction false} TextFindsEveryChosen(chosen: seq<Coord>, c: Coord)
    requires c in chosen
    ensures IsAlreadyAMineText(chosen, c)
  {
    var t := CoordText(c);
    var head := CoordText(chosen[0]);
    if chosen[0] == c {
      assert OccursAt(JoinText(chosen), t, 0);
    } else {
      TextFindsEveryChosen(chosen[1..], c);
      var rest := JoinText(chosen[1..]);
      var i :| 0 <= i <= |rest| - |t| && OccursAt(rest, t, i);
      var k := |head| + 1 + i;
      assert JoinText(chosen) == (head + " ") + rest;
      assert JoinText(chosen)[k..k + |t|] == rest[i..i + |t|];
      assert OccursAt(JoinText(chosen), t, k);
    }
  }

  /** The text test also rejects positions never chosen: `"0,1"` occurs in `"0,10"`. */
  lemma TextOverRejects()
    ensures IsAlreadyAMineText([Coord(0, 10)], Coord(0, 1))
    ensures Coord(0, 1) !in [Coord(0, 10)]
  {
    assert Decimal(10) == "10";
    assert CoordText(Coord(0, 10)) == "0,10";
    assert CoordText(Coord(0, 1)) == "0,1";
    assert OccursAt(JoinText([Coord(0, 10)]), "0,1", 0);
  }
}

=== FILE: reveal.dfy ===
/**
 * The reveal logic of the board component (board.component.ts): `_openCell`,
 * the chord of `_manageCellsAround` / `_openCellsAround`, and `onOpenCell`,
 * which places the mines on the first click and dispatches.
 */
module Reveal {
  import opened Wrappers
  import opened Grid
  import opened Enums
  import opened Layout
  import opened GameService
  import opened Board
  import opened FloodFill
  import opened BoardState

  /** `a` became `b` by opening some cell: same entry, flags only set, exploded only when `boom`. */
  predicate Revealed(a: Cell, b: Cell, boom: bool) {
    && a.kind == b.kind
    && (a.isOpened ==> b.isOpened)
    && (a.isCenterZero ==> b.isCenterZero)
    && b.isMineExploded == (a.isMineExploded || boom)
  }

  /** `r` is `g` after opening `c`: only a mine at `c` may have exploded. */
  ghost predicate OpenedOver(g: Cells, r: Cells, v: nat, h: nat, c: Coord) {
    && Shape(g, v, h) && Shape(r, v, h)
    && forall d :: InBounds(v, h, d) ==> Revealed(At(g, d), At(r, d), d == c && At(g, d).kind == Mine)
  }

  /** No mine other than `c` was opened. */
  ghost predicate NoOtherMineOpened(g: Cells, r: Cells, v: nat, h: nat, c: Coord)
    requires Shape(g, v, h) && Shape(r, v, h)
  {
    forall d :: InBounds(v, h, d) && d != c && At(g, d).kind == Mine ==> At(r, d).isOpened == At(g, d).isOpened
  }

  ghost predicate SameKinds(g: Cells, r: Cells, v: nat, h: nat)
    requires Shape(g, v, h) && Shape(r, v, h)
  {
    forall d :: InBounds(v, h, d) ==> At(g, d).kind == At(r, d).kind
  }

  /** The flood area depends on the entries only. */
  lemma FloodSameKinds(g: Cells, r: Cells, v: nat, h: nat, s: Coord, c: Coord)
    requires Shape(g, v, h) && Shape(r, v, h) && SameKinds(g, r, v, h)
    ensures InFloodArea(g, v, h, s, c) <==> InFloodArea(r, v, h, s, c)
    ensures Reach(g, v, h, s, c) <==> Reach(r, v, h, s, c)
  {
    forall p ensures ZeroPath(g, v, h, p) <==> ZeroPath(r, v, h, p) {
      if |p| > 0 {
        assert (forall i :: 0 <= i < |p| ==> InBounds(v, h, p[i]) && IsZero(At(g, p[i]).kind))
           <==> (forall i :: 0 <= i < |p| ==> InBounds(v, h, p[i]) && IsZero(At(r, p[i]).kind));
      }
    }
    forall d ensures Reach(g, v, h, s, d) <==> Reach(r, v, h, s, d) {
    }
  }

  /** Opening one closed non-zero cell, mine or number, keeps the invariant. */
  lemma OpenOneKeeps(s: Session, c: Coord, a: Cell, r: Session)
    requires Playing(s) && InBounds(Rows(s), Cols(s), c) && !At(s.cells, c).isOpened
    requires a == At(s.cells, c).(isOpened := true, isMineExploded := a.isMineExploded, zeroMarked := a.zeroMarked)
    requires !IsZero(a.kind) && (a.zeroMarked ==> At(s.cells, c).zeroMarked)
    requires a.isMineExploded ==> a.kind == Mine || At(s.cells, c).isMineExploded
    requires r.cells == Put(s.cells, c, a)
    requires r.svc == s.svc.(remainingEmptyCells := r.svc.remainingEmptyCells, gameStatus := r.svc.gameStatus)
    requires a.kind != Mine ==> r.svc.remainingEmptyCells == s.svc.remainingEmptyCells - 1
    ensures Playing(r)
  {
    var v, h := Rows(s), Cols(s);
    var g := s.cells;
    assert At(r.cells, c) == a;
    assert !At(g, c).isCenterZero;
    forall d | InBounds(v, h, d) && At(r.cells, d).isCenterZero
      ensures ExpandedAt(r.cells, v, h, d)
    {
      assert d != c;
      assert ExpandedAt(g, v, h, d);
    }
    if NoMineOpened(r.cells, v, h) {
      assert a.kind != Mine;
      OpenOne(g, v, h, c, a);
    }
  }

  lemma OpenOneKeepsWhenPlaying(s: Session, c: Coord, a: Cell, r: Session)
    requires SessionShape(s) && InBounds(Rows(s), Cols(s), c)
    requires a == At(s.cells, c).(isOpened := true, isMineExploded := a.isMineExploded, zeroMarked := a.zeroMarked)
    requires !IsZero(a.kind) && (a.zeroMarked ==> At(s.cells, c).zeroMarked)
    requires a.isMineExploded ==> a.kind == Mine || At(s.cells, c).isMineExploded
    requires r.cells == Put(s.cells, c, a)
    requires r.svc == s.svc.(remainingEmptyCells := r.svc.remainingEmptyCells, gameStatus := r.svc.gameStatus)
    requires a.kind != Mine ==> r.svc.remainingEmptyCells == s.svc.remainingEmptyCells - 1
    ensures Playing(s) && !At(s.cells, c).isOpened ==> Playing(r)
  {
    if Playing(s) && !At(s.cells, c).isOpened {
      OpenOneKeeps(s, c, a, r);
    }
  }

  /** The start of a fill from a closed zero that has just been opened. */
  lemma ZeroStartSettled(s: Session, c: Coord, g1: Cells)
    requires Playing(s) && InBounds(Rows(s), Cols(s), c) && !At(s.cells, c).isOpened
    requires IsZero(At(s.cells, c).kind)
    requires g1 == Put(s.cells, c, At(s.cells, c).(isOpened := true))
    ensures SettledStart(g1, Rows(s), Cols(s), c)
  {
    var v, h := Rows(s), Cols(s);
    forall d | InBounds(v, h, d) && At(g1, d).isCenterZero
      ensures ExpandedAt(g1, v, h, d)
    {
      assert ExpandedAt(s.cells, v, h, d);
    }
  }

  /** Opening a closed zero and filling from it keeps the invariant and opens no mine. */
  lemma OpenZeroKeeps(s: Session, c: Coord, g1: Cells, r: Session)
    requires Playing(s) && InBounds(Rows(s), Cols(s), c) && !At(s.cells, c).isOpened
    requires IsZero(At(s.cells, c).kind)
    requires g1 == Put(s.cells, c, At(s.cells, c).(isOpened := true))
    requires GrownGrid(g1, r.cells, Rows(s), Cols(s))
    requires NoMarks(r.cells, Rows(s), Cols(s)) && At(r.cells, c).isCenterZero
    requires CentresOpened(r.cells, Rows(s), Cols(s)) && CentresExpanded(r.cells, Rows(s), Cols(s))
    requires forall d :: InBounds(Rows(s), Cols(s), d) ==> OpenedExactly(g1, r.cells, Rows(s), Cols(s), c, d)
    requires r.svc == s.svc.(remainingEmptyCells := r.svc.remainingEmptyCells, gameStatus := r.svc.gameStatus)
    requires r.svc.remainingEmptyCells
             == Rows(s) * Cols(s) - (s.svc.minesLenght + |OpenedSet(r.cells, Rows(s), Cols(s))|)
    ensures Playing(r) && NoOtherMineOpened(s.cells, r.cells, Rows(s), Cols(s), c)
  {
    var v, h := Rows(s), Cols(s);
    var g := r.cells;
    forall d | InBounds(v, h, d)
      ensures At(g, d).kind == At(s.cells, d).kind
      ensures At(g, d).isMineExploded ==> At(g, d).isOpened && At(g, d).kind == Mine
    {
      assert Grown(At(g1, d), At(g, d));
      assert ExplosionsOpenMines(s.cells, v, h);
    }
    forall d | InBounds(v, h, d) && At(g, d).isOpened && !At(g1, d).isOpened
      ensures At(g, d).kind != Mine
      ensures IsZero(At(g, d).kind) ==> At(g, d).isCenterZero
    {
      assert OpenedExactly(g1, g, v, h, c, d);
      if !Reach(g1, v, h, c, d) {
        var e :| Adjacent(e, d) && Reach(g1, v, h, c, e);
        ReachIsZero(g1, v, h, c, e);
        ZeroHasNoAdjacentMine(s.svc.board, v, h, e, d);
        if IsZero(At(g, d).kind) {
          ReachExtend(g1, v, h, c, e, d);
        }
      } else {
        ReachIsZero(g1, v, h, c, d);
      }
    }
    forall d | InBounds(v, h, d) && At(g, d).isOpened && IsZero(At(g, d).kind)
      ensures At(g, d).isCenterZero
    {
      assert Grown(At(g1, d), At(g, d));
    }
  }

  /** Cell `d` after opening the closed zero `c`: open exactly when it was, or in the flood area. */
  ghost predicate OpenedByFill(g: Cells, r: Cells, v: nat, h: nat, c: Coord, d: Coord)
    requires Shape(g, v, h) && Shape(r, v, h) && InBounds(v, h, d)
  {
    At(r, d).isOpened <==> At(g, d).isOpened || InFloodArea(g, v, h, c, d)
  }

  /** The opening of the mine `c`: opened and exploded, the game lost, nothing else changed. */
  function OpenMine(s: Session, c: Coord): (r: Session)
    requires SessionShape(s) && InBounds(Rows(s), Cols(s), c) && At(s.cells, c).kind == Mine
    ensures SessionShape(r) && r.svc == s.svc.(gameStatus := Lost)
    ensures At(r.cells, c).isOpened && OpenedOver(s.cells, r.cells, Rows(s), Cols(s), c)
    ensures forall d :: InBounds(Rows(s), Cols(s), d) && d != c ==> At(r.cells, d) == At(s.cells, d)
    ensures Playing(s) && !At(s.cells, c).isOpened ==>
              Playing(r) && NoOtherMineOpened(s.cells, r.cells, Rows(s), Cols(s), c)
  {
    var e := At(s.cells, c).(isOpened := true, isMineExploded := true);
    var r := Session(SetGameStatus(s.svc, Lost), Put(s.cells, c, e));
    OpenOneKeepsWhenPlaying(s, c, e, r);
    r
  }

  /** The opening of the number `c`: opened, `Running`, the counter one lower, nothing else changed. */
  function OpenNumber(s: Session, c: Coord): (r: Session)
    requires SessionShape(s) && InBounds(Rows(s), Cols(s), c)
    requires At(s.cells, c).kind != Mine && !IsZero(At(s.cells, c).kind)
    ensures SessionShape(r)
    ensures r.svc == s.svc.(remainingEmptyCells := r.svc.remainingEmptyCells, gameStatus := r.svc.gameStatus)
    ensures r.svc.remainingEmptyCells == s.svc.remainingEmptyCells - 1
    ensures r.svc.gameStatus == WonIf(s.svc.remainingEmptyCells, r.svc.remainingEmptyCells, Running)
    ensures At(r.cells, c).isOpened && OpenedOver(s.cells, r.cells, Rows(s), Cols(s), c)
    ensures forall d :: InBounds(Rows(s), Cols(s), d) && d != c ==> At(r.cells, d) == At(s.cells, d)
    ensures Playing(s) && !At(s.cells, c).isOpened ==>
              Playing(r) && NoOtherMineOpened(s.cells, r.cells, Rows(s), Cols(s), c)
  {
    var n := At(s.cells, c).(isOpened := true, zeroMarked := false);
    var svc := SetGameStatus(s.svc, Running);
    var r := Session(Notify(svc.remainingEmptyCells, DecreaseRemainingEmptyCells(svc, 1)), Put(s.cells, c, n));
    OpenOneKeepsWhenPlaying(s, c, n, r);
    r
  }

  /**
   * The opening of the zero `c`: opened, `Running`, the flood fill from it,
   * then the counter recounted from the opened cells.
   */
  method OpenZero(s: Session, c: Coord) returns (r: Session)
    requires SessionShape(s) && InBounds(Rows(s), Cols(s), c) && IsZero(At(s.cells, c).kind)
    ensures SessionShape(r)
    ensures r.svc == s.svc.(remainingEmptyCells := r.svc.remainingEmptyCells, gameStatus := r.svc.gameStatus)
    ensures r.svc.gameStatus == WonIf(s.svc.remainingEmptyCells, r.svc.remainingEmptyCells, Running)
    ensures r.svc.remainingEmptyCells
            == Rows(s) * Cols(s) - (s.svc.minesLenght + |OpenedSet(r.cells, Rows(s), Cols(s))|)
    ensures NoMarks(r.cells, Rows(s), Cols(s))
    ensures At(r.cells, c).isOpened && OpenedOver(s.cells, r.cells, Rows(s), Cols(s), c)
    ensures Playing(s) && !At(s.cells, c).isOpened ==>
              Playing(r) && NoOtherMineOpened(s.cells, r.cells, Rows(s), Cols(s), c)
    ensures Playing(s) && !At(s.cells, c).isOpened ==>
              forall d :: InBounds(Rows(s), Cols(s), d) ==> OpenedByFill(s.cells, r.cells, Rows(s), Cols(s), c, d)
  {
    var v, h := Rows(s), Cols(s);
    var svc := SetGameStatus(s.svc, Running);
    var g1 := Put(s.cells, c, At(s.cells, c).(isOpened := true));
    var g := OpenCellsAroundZero(g1, v, h, c);
    var allOpened := FindAllCellData(g, v, h, IsOpenedCell);
    r := Session(Notify(svc.remainingEmptyCells, SetRemainEmptyCells(svc, v * h - (svc.minesLenght + |allOpened|))), g);
    assert Grown(At(g1, c), At(g, c));
    forall d | InBounds(v, h, d)
      ensures Revealed(At(s.cells, d), At(g, d), d == c && At(s.cells, d).kind == Mine)
    {
      assert Grown(At(g1, d), At(g, d));
    }
    if Playing(s) && !At(s.cells, c).isOpened {
      ZeroStartSettled(s, c, g1);
      OpenZeroKeeps(s, c, g1, r);
      forall d | InBounds(v, h, d)
        ensures OpenedByFill(s.cells, r.cells, v, h, c, d)
      {
        assert OpenedExactly(g1, g, v, h, c, d);
        FloodSameKinds(g1, s.cells, v, h, c, d);
      }
    }
  }

  /**
   * `_openCell`. A mine is opened and exploded and the game is lost; any
   * other cell sets `Running`, then a number is opened and the counter
   * drops by one, while a zero is flood-filled and the counter recounted
   * from the opened cells. A counter reaching 0 from another value wins.
   * Opening a closed cell between clicks keeps the game invariant and opens
   * no other mine.
   */
  method OpenCell(s: Session, c: Coord) returns (r: Session)
    requires SessionShape(s) && InBounds(Rows(s), Cols(s), c)
    ensures SessionShape(r)
    ensures r.svc == s.svc.(remainingEmptyCells := r.svc.remainingEmptyCells, gameStatus := r.svc.gameStatus)
    ensures At(r.cells, c).isOpened && OpenedOver(s.cells, r.cells, Rows(s), Cols(s), c)
    ensures At(s.cells, c).kind == Mine ==>
              r.svc.gameStatus == Lost && r.svc.remainingEmptyCells == s.svc.remainingEmptyCells
    ensures At(s.cells, c).kind != Mine ==>
              r.svc.gameStatus == WonIf(s.svc.remainingEmptyCells, r.svc.remainingEmptyCells, Running)
    ensures At(s.cells, c).kind != Mine && !IsZero(At(s.cells, c).kind) ==>
              r.svc.remainingEmptyCells == s.svc.remainingEmptyCells - 1
    ensures IsZero(At(s.cells, c).kind) ==>
              r.svc.remainingEmptyCells
              == Rows(s) * Cols(s) - (s.svc.minesLenght + |OpenedSet(r.cells, Rows(s), Cols(s))|)
    ensures !IsZero(At(s.cells, c).kind) ==>
              forall d :: InBounds(Rows(s), Cols(s), d) && d != c ==> At(r.cells, d) == At(s.cells, d)
    ensures Playing(s) && !At(s.cells, c).isOpened ==>
              Playing(r) && NoOtherMineOpened(s.cells, r.cells, Rows(s), Cols(s), c)
    ensures Playing(s) && !At(s.cells, c).isOpened && IsZero(At(s.cells, c).kind) ==>
              forall d :: InBounds(Rows(s), Cols(s), d) ==> OpenedByFill(s.cells, r.cells, Rows(s), Cols(s), c, d)
  {
    if At(s.cells, c).kind == Mine {
      r := OpenMine(s, c);
    } else if IsZero(At(s.cells, c).kind) {
      r := OpenZero(s, c);
    } else {
      r := OpenNumber(s, c);
    }
  }

  // ---------------------------------------------------------------------
  // The chord on an opened number
  // ---------------------------------------------------------------------

  /** `d` is on the board, closed, and a mine. */
  predicate ClosedMine(g: Cells, v: nat, h: nat, d: Coord)
    requires Shape(g, v, h)
  {
    InBounds(v, h, d) && !At(g, d).isOpened && At(g, d).kind == Mine
  }

  /**
   * The offset index, from `j` on, of the first closed mine around `c`: the
   * mine `_openCellsAround` skips when it sets `willLost`.
   */
  function FirstClosedMine(g: Cells, v: nat, h: nat, c: Coord, j: nat): (r: Option<nat>)
    requires Shape(g, v, h) && j <= |Offsets|
    ensures r.Some? ==> j <= r.value < |Offsets| && ClosedMine(g, v, h, Around(c, r.value))
    ensures r.Some? ==> forall k :: j <= k < r.value ==> !ClosedMine(g, v, h, Around(c, k))
    ensures r.None? ==> forall k :: j <= k < |Offsets| ==> !ClosedMine(g, v, h, Around(c, k))
    decreases |Offsets| - j
  {
    if j == |Offsets| then None
    else if ClosedMine(g, v, h, Around(c, j)) then Some(j)
    else FirstClosedMine(g, v, h, c, j + 1)
  }

  lemma OffsetIndexOfAround(c: Coord, i: nat, d: Coord)
    requires i < |Offsets| && Adjacent(c, d)
    ensures OffsetIndex(c, d) == i <==> d == Around(c, i)
  {
    if d == Around(c, i) && OffsetIndex(c, d) != i {
      AroundInjective(c, i, OffsetIndex(c, d));
    }
  }

  /**
   * Cell `d` after the chord around `c` has handled the offsets below `i`,
   * `first` being the index of the skipped mine: entries kept, reached safe
   * cells opened, reached closed mines other than the skipped one opened and
   * exploded, no other mine touched.
   */
  ghost predicate ChordAt(g0: Cells, g: Cells, v: nat, h: nat, c: Coord, i: nat, first: Option<nat>, d: Coord)
    requires Shape(g0, v, h) && Shape(g, v, h) && InBounds(v, h, d)
  {
    var reached := Adjacent(c, d) && OffsetIndex(c, d) < i;
    var skipped := Adjacent(c, d) && first == Some(OffsetIndex(c, d));
    && At(g, d).kind == At(g0, d).kind
    && (At(g0, d).isOpened ==> At(g, d).isOpened)
    && (At(g0, d).kind != Mine && reached ==> At(g, d).isOpened)
    && (At(g0, d).kind == Mine ==> (At(g, d).isOpened <==> At(g0, d).isOpened || (reached && !skipped)))
    && (At(g, d).isMineExploded <==> At(g0, d).isMineExploded || (ClosedMine(g0, v, h, d) && reached && !skipped))
    && (At(g, d).isOpened && !At(g0, d).isOpened ==> reached || ChordFilled(g0, v, h, c, i, d))
  }

  /** `d` lies in the flood area of the closed zero `n`. */
  ghost predicate FilledFrom(g0: Cells, v: nat, h: nat, n: Coord, d: Coord)
    requires Shape(g0, v, h)
  {
    InBounds(v, h, n) && !At(g0, n).isOpened && IsZero(At(g0, n).kind) && InFloodArea(g0, v, h, n, d)
  }

  /** `d` lies in the flood area of a closed zero neighbour of `c` at an offset below `i`. */
  ghost predicate ChordFilled(g0: Cells, v: nat, h: nat, c: Coord, i: nat, d: Coord)
    requires Shape(g0, v, h)
  {
    exists k :: 0 <= k < i && k < |Offsets| && FilledFrom(g0, v, h, Around(c, k), d)
  }

  lemma ChordFilledGrows(g0: Cells, v: nat, h: nat, c: Coord, i: nat, d: Coord)
    requires Shape(g0, v, h) && ChordFilled(g0, v, h, c, i, d)
    ensures ChordFilled(g0, v, h, c, i + 1, d)
  {
    var k :| 0 <= k < i && k < |Offsets| && FilledFrom(g0, v, h, Around(c, k), d);
    assert 0 <= k < i + 1;
  }

  ghost predicate ChordUpTo(g0: Cells, g: Cells, v: nat, h: nat, c: Coord, i: nat, first: Option<nat>)
    requires Shape(g0, v, h) && Shape(g, v, h)
  {
    forall d :: InBounds(v, h, d) ==> ChordAt(g0, g, v, h, c, i, first, d)
  }

  /** An offset that changes nothing: off the board, already open, or the skipped mine. */
  lemma ChordPass(g0: Cells, g: Cells, v: nat, h: nat, c: Coord, i: nat, first: Option<nat>)
    requires Shape(g0, v, h) && Shape(g, v, h) && i < |Offsets|
    requires ChordUpTo(g0, g, v, h, c, i, first)
    requires var n := Around(c, i);
      !InBounds(v, h, n) || At(g, n).isOpened || (At(g, n).kind == Mine && first == Some(i))
    ensures ChordUpTo(g0, g, v, h, c, i + 1, first)
  {
    forall d | InBounds(v, h, d)
      ensures ChordAt(g0, g, v, h, c, i + 1, first, d)
    {
      assert ChordAt(g0, g, v, h, c, i, first, d);
      if Adjacent(c, d) {
        OffsetIndexOfAround(c, i, d);
      }
      if ChordFilled(g0, v, h, c, i, d) {
        ChordFilledGrows(g0, v, h, c, i, d);
      }
    }
  }

  /** An offset whose cell goes through `_openCell`. */
  lemma ChordOpen(g0: Cells, g: Cells, g1: Cells, v: nat, h: nat, c: Coord, i: nat, first: Option<nat>)
    requires Shape(g0, v, h) && Shape(g, v, h) && Shape(g1, v, h) && i < |Offsets|
    requires ChordUpTo(g0, g, v, h, c, i, first)
    requires var n := Around(c, i);
      && InBounds(v, h, n) && !At(g, n).isOpened
      && (At(g, n).kind == Mine ==> first.Some? && first.value < i)
      && OpenedOver(g, g1, v, h, n) && NoOtherMineOpened(g, g1, v, h, n) && At(g1, n).isOpened
      && (!IsZero(At(g, n).kind) ==> forall d :: InBounds(v, h, d) && d != n ==> At(g1, d) == At(g, d))
      && (IsZero(At(g, n).kind) ==> forall d :: InBounds(v, h, d) ==> OpenedByFill(g, g1, v, h, n, d))
    ensures ChordUpTo(g0, g1, v, h, c, i + 1, first)
  {
    var n := Around(c, i);
    forall d | InBounds(v, h, d)
      ensures At(g, d).kind == At(g0, d).kind
    {
      assert ChordAt(g0, g, v, h, c, i, first, d);
    }
    assert SameKinds(g0, g, v, h);
    assert !At(g0, n).isOpened by {
      assert ChordAt(g0, g, v, h, c, i, first, n);
    }
    forall d | InBounds(v, h, d)
      ensures ChordAt(g0, g1, v, h, c, i + 1, first, d)
    {
      assert ChordAt(g0, g, v, h, c, i, first, d);
      assert Revealed(At(g, d), At(g1, d), d == n && At(g, d).kind == Mine);
      if Adjacent(c, d) {
        OffsetIndexOfAround(c, i, d);
      }
      if ChordFilled(g0, v, h, c, i, d) {
        ChordFilledGrows(g0, v, h, c, i, d);
      }
      if At(g1, d).isOpened && !At(g, d).isOpened && d != n {
        ChordOpenFills(g0, g, g1, v, h, c, i, d);
      }
    }
  }

  /** A cell other than `n` that the opening of `n` opens lies in the flood area of the zero `n`. */
  lemma ChordOpenFills(g0: Cells, g: Cells, g1: Cells, v: nat, h: nat, c: Coord, i: nat, d: Coord)
    requires Shape(g0, v, h) && Shape(g, v, h) && Shape(g1, v, h) && i < |Offsets| && InBounds(v, h, d)
    requires SameKinds(g0, g, v, h)
    requires var n := Around(c, i);
      && InBounds(v, h, n) && !At(g0, n).isOpened && d != n
      && At(g1, d).isOpened && !At(g, d).isOpened
      && (!IsZero(At(g, n).kind) ==> forall e :: InBounds(v, h, e) && e != n ==> At(g1, e) == At(g, e))
      && (IsZero(At(g, n).kind) ==> forall e :: InBounds(v, h, e) ==> OpenedByFill(g, g1, v, h, n, e))
    ensures ChordFilled(g0, v, h, c, i + 1, d)
  {
    var n := Around(c, i);
    assert IsZero(At(g, n).kind);
    assert OpenedByFill(g, g1, v, h, n, d);
    FloodSameKinds(g0, g, v, h, n, d);
    assert FilledFrom(g0, v, h, Around(c, i), d);
  }

  /** What the chord around `c` promises between clicks, `first` being the skipped mine. */
  ghost predicate ChordDone(s: Session, c: Coord, r: Session)
    requires SessionShape(s) && SessionShape(r) && Rows(r) == Rows(s) && Cols(r) == Cols(s)
  {
    var first := FirstClosedMine(s.cells, Rows(s), Cols(s), c, 0);
    && Playing(r)
    && ChordUpTo(s.cells, r.cells, Rows(s), Cols(s), c, |Offsets|, first)
    && (first.Some? ==> r.svc.gameStatus == Lost)
    && (first.None? && r.svc.gameStatus == Lost ==> s.svc.gameStatus == Lost)
    && (NoMineOpened(s.cells, Rows(s), Cols(s)) && first.None? ==> ChordWins(s, r))
    && (first.None? ==> ChordStatus(s, c, r, |Offsets|))
  }

  /** Some on-board neighbour of `c` at an offset below `i` is closed. */
  predicate ClosedBefore(g: Cells, v: nat, h: nat, c: Coord, i: nat)
    requires Shape(g, v, h) && i <= |Offsets|
  {
    i > 0 && (ClosedBefore(g, v, h, c, i - 1) || (InBounds(v, h, Around(c, i - 1)) && !At(g, Around(c, i - 1)).isOpened))
  }

  /**
   * The state after a chord with no closed mine among the offsets below `i`:
   * with no closed neighbour there, nothing changed; otherwise the last
   * `_openCell` left `Running`, overwritten by `Won` only at a counter of 0,
   * and, while no mine is open, a counter of 0 is `Won`.
   */
  ghost predicate ChordStatus(s: Session, c: Coord, r: Session, i: nat)
    requires SessionShape(s) && i <= |Offsets|
  {
    var closed := ClosedBefore(s.cells, Rows(s), Cols(s), c, i);
    && (!closed ==> r == s)
    && (closed ==> r.svc.gameStatus == Running || (r.svc.gameStatus == Won && r.svc.remainingEmptyCells == 0))
    && (closed && NoMineOpened(s.cells, Rows(s), Cols(s)) && r.svc.remainingEmptyCells == 0 ==> r.svc.gameStatus == Won)
  }

  /**
   * A chord that meets no closed mine opens no mine, and when it brings the
   * counter to 0 the `Won` rule fires: once the counter is 0 every safe cell
   * is open, so no later `_openCell` writes `Running` over it.
   */
  ghost predicate ChordWins(s: Session, r: Session)
    requires SessionShape(s) && SessionShape(r) && Rows(r) == Rows(s) && Cols(r) == Cols(s)
  {
    && NoMineOpened(r.cells, Rows(s), Cols(s))
    && (s.svc.remainingEmptyCells != 0 && r.svc.remainingEmptyCells == 0 ==> r.svc.gameStatus == Won)
  }

  /** Opening a closed safe cell between clicks opens no mine, and a counter it brings to 0 wins. */
  lemma SafeOpenWins(r: Session, n: Coord, r1: Session)
    requires Playing(r) && NoMineOpened(r.cells, Rows(r), Cols(r))
    requires InBounds(Rows(r), Cols(r), n) && !At(r.cells, n).isOpened && At(r.cells, n).kind != Mine
    requires SessionShape(r1) && Rows(r1) == Rows(r) && Cols(r1) == Cols(r)
    requires OpenedOver(r.cells, r1.cells, Rows(r), Cols(r), n)
    requires NoOtherMineOpened(r.cells, r1.cells, Rows(r), Cols(r), n)
    requires r1.svc.gameStatus == WonIf(r.svc.remainingEmptyCells, r1.svc.remainingEmptyCells, Running)
    ensures NoMineOpened(r1.cells, Rows(r), Cols(r))
    ensures r1.svc.remainingEmptyCells == 0 ==> r1.svc.gameStatus == Won
  {
    var v, h := Rows(r), Cols(r);
    forall d | InBounds(v, h, d) && At(r1.cells, d).isOpened
      ensures At(r1.cells, d).kind != Mine
    {
      assert Revealed(At(r.cells, d), At(r1.cells, d), d == n && At(r.cells, d).kind == Mine);
    }
    if r.svc.remainingEmptyCells == 0 {
      WonMeansCleared(r);
    }
  }

  /** What holds after the chord has handled the offsets below `i`. */
  ghost predicate ChordLoop(s: Session, c: Coord, first: Option<nat>, r: Session, willLost: bool, i: nat)
  {
    && SessionShape(s) && SessionShape(r)
    && r.svc == s.svc.(remainingEmptyCells := r.svc.remainingEmptyCells, gameStatus := r.svc.gameStatus)
    && (!willLost && r.svc.gameStatus == Lost ==> s.svc.gameStatus == Lost)
    && (Playing(s) ==> Playing(r) && ChordUpTo(s.cells, r.cells, Rows(s), Cols(s), c, i, first))
    && (Playing(s) ==> (willLost <==> first.Some? && first.value < i))
    && (Playing(s) && NoMineOpened(s.cells, Rows(s), Cols(s)) && first.None? ==>
          Rows(r) == Rows(s) && Cols(r) == Cols(s) && ChordWins(s, r))
    && (Playing(s) && first.None? ==> i <= |Offsets| && ChordStatus(s, c, r, i))
  }

  /** One pass of the chord's `for`: the neighbour at offset `i`. */
  method ChordStep(s: Session, c: Coord, first: Option<nat>, r: Session, willLost: bool, i: nat)
    returns (r1: Session, willLost1: bool)
    requires i < |Offsets| && ChordLoop(s, c, first, r, willLost, i)
    requires first == FirstClosedMine(s.cells, Rows(s), Cols(s), c, 0)
    ensures ChordLoop(s, c, first, r1, willLost1, i + 1)
  {
    var v, h := Rows(s), Cols(s);
    var n := Around(c, i);
    r1, willLost1 := r, willLost;
    if InBounds(v, h, n) && !At(r.cells, n).isOpened {
      if At(r.cells, n).kind == Mine && !willLost {
        willLost1 := true;
        if Playing(s) {
          assert ChordAt(s.cells, r.cells, v, h, c, i, first, n);
          OffsetIndexOfAround(c, i, n);
          assert ClosedMine(s.cells, v, h, n);
          ChordPass(s.cells, r.cells, v, h, c, i, first);
        }
      } else {
        r1 := OpenCell(r, n);
        if Playing(s) {
          assert ChordAt(s.cells, r.cells, v, h, c, i, first, n);
          OffsetIndexOfAround(c, i, n);
          ChordOpen(s.cells, r.cells, r1.cells, v, h, c, i, first);
          if NoMineOpened(s.cells, v, h) && first.None? {
            assert !ClosedMine(s.cells, v, h, Around(c, i));
            SafeOpenWins(r, n, r1);
          }
          if first.None? {
            assert !At(s.cells, n).isOpened;
            assert ClosedBefore(s.cells, v, h, c, i + 1);
          }
        }
      }
    } else if Playing(s) {
      if InBounds(v, h, n) {
        assert ChordAt(s.cells, r.cells, v, h, c, i, first, n);
        OffsetIndexOfAround(c, i, n);
      }
      ChordPass(s.cells, r.cells, v, h, c, i, first);
    }
  }

  /**
   * `_openCellsAround`: every closed on-board neighbour of `c` goes through
   * `_openCell`, except the first closed mine, which only sets `willLost`;
   * after the loop a set `willLost` loses the game. Between clicks: every
   * safe neighbour ends open, every closed mine neighbour but the first ends
   * opened and exploded, no other mine is touched, and the game is lost
   * exactly when some neighbour was a closed mine (or it was lost before).
   */
  method OpenCellsAround(s: Session, c: Coord) returns (r: Session)
    requires SessionShape(s)
    ensures SessionShape(r)
    ensures r.svc == s.svc.(remainingEmptyCells := r.svc.remainingEmptyCells, gameStatus := r.svc.gameStatus)
    ensures Playing(s) ==> ChordDone(s, c, r)
  {
    var first := FirstClosedMine(s.cells, Rows(s), Cols(s), c, 0);
    var willLost := false;
    r := s;
    var i := 0;
    while i < |Offsets|
      invariant 0 <= i <= |Offsets|
      invariant ChordLoop(s, c, first, r, willLost, i)
    {
      r, willLost := ChordStep(s, c, first, r, willLost, i);
      i := i + 1;
    }
    if willLost {
      r := r.(svc := SetGameStatus(r.svc, Lost));
    }
  }

  /** A number other than 0 can be chorded; zeros and mines cannot. */
  predicate Chordable(k: CellValue) {
    k.Num? && k.n != 0
  }

  /**
   * `_manageCellsAround`: the chord runs only on a non-zero number; on a
   * zero or a mine nothing changes.
   */
  method ManageCellsAround(s: Session, c: Coord) returns (r: Session)
    requires SessionShape(s) && InBounds(Rows(s), Cols(s), c)
    ensures SessionShape(r)
    ensures r.svc == s.svc.(remainingEmptyCells := r.svc.remainingEmptyCells, gameStatus := r.svc.gameStatus)
    ensures !Chordable(At(s.cells, c).kind) ==> r == s
    ensures Chordable(At(s.cells, c).kind) && Playing(s) ==> ChordDone(s, c, r)
  {
    if Chordable(At(s.cells, c).kind) {
      r := OpenCellsAround(s, c);
    } else {
      r := s;
    }
  }

  // ---------------------------------------------------------------------
  // The click handler
  // ---------------------------------------------------------------------

  /**
   * The first-click part of `onOpenCell`: the flag cleared, the mines placed
   * at `positions`, and the new board parsed by the component.
   */
  function PlaceMines(s: Session, c: Coord, positions: seq<Coord>): (r: Session)
    requires SessionShape(s) && InBounds(Rows(s), Cols(s), c) && s.svc.isFirstClickInCell
    requires ValidPositions(positions, Rows(s), Cols(s), s.svc.minesLenght, c)
    ensures SessionShape(r) && Rows(r) == Rows(s) && Cols(r) == Cols(s)
    ensures r.svc.minesLenght == s.svc.minesLenght && !r.svc.isFirstClickInCell
    ensures r.svc.remainingEmptyCells == s.svc.remainingEmptyCells && r.svc.gameStatus == s.svc.gameStatus
    ensures AllUntouched(r.cells, Rows(s), Cols(s))
    ensures GameInv(s) ==> Playing(r)
    ensures GameInv(s) ==>
              MineCells(r.svc.board, Rows(s), Cols(s)) == Elements(positions) && At(r.svc.board, c) != Mine
  {
    var v, h := Rows(s), Cols(s);
    var svc := PopulateEmptyBoard(s.svc.(isFirstClickInCell := false), c, positions);
    var r := Session(svc, ParseBoard(svc.board, v, h));
    PlacedMinesPlaying(s, c, positions, r);
    r
  }

  lemma PlacedMinesPlaying(s: Session, c: Coord, positions: seq<Coord>, r: Session)
    requires SessionShape(s) && InBounds(Rows(s), Cols(s), c) && s.svc.isFirstClickInCell
    requires ValidPositions(positions, Rows(s), Cols(s), s.svc.minesLenght, c)
    requires r.svc == PopulateEmptyBoard(s.svc.(isFirstClickInCell := false), c, positions)
    requires r.cells == ParseBoard(r.svc.board, Rows(s), Cols(s))
    ensures GameInv(s) ==> Playing(r)
    ensures GameInv(s) ==>
              MineCells(r.svc.board, Rows(s), Cols(s)) == Elements(positions) && At(r.svc.board, c) != Mine
  {
    if GameInv(s) {
      FirstClickFacts(s);
      PopulatedFacts(s, c, positions, r.svc);
      ParsedPlaying(r);
    }
  }

  lemma FirstClickFacts(s: Session)
    requires GameInv(s) && s.svc.isFirstClickInCell
    ensures AllZero(s.svc.board, Rows(s), Cols(s))
    ensures s.svc.remainingEmptyCells == Rows(s) * Cols(s) - s.svc.minesLenght
  {
  }

  lemma PopulatedFacts(s: Session, c: Coord, positions: seq<Coord>, svc: Service)
    requires SessionShape(s) && InBounds(Rows(s), Cols(s), c)
    requires ValidPositions(positions, Rows(s), Cols(s), s.svc.minesLenght, c)
    requires svc == PopulateEmptyBoard(s.svc.(isFirstClickInCell := false), c, positions)
    requires AllZero(s.svc.board, Rows(s), Cols(s))
    ensures Numbered(svc.board, Rows(s), Cols(s))
    ensures MineCells(svc.board, Rows(s), Cols(s)) == Elements(positions)
    ensures |MineCells(svc.board, Rows(s), Cols(s))| == s.svc.minesLenght
    ensures At(svc.board, c) != Mine
  {
  }

  /** A freshly parsed numbered board with its mines down satisfies the invariant. */
  lemma ParsedPlaying(r: Session)
    requires SessionShape(r) && !r.svc.isFirstClickInCell
    requires r.cells == ParseBoard(r.svc.board, Rows(r), Cols(r))
    requires Numbered(r.svc.board, Rows(r), Cols(r))
    requires |MineCells(r.svc.board, Rows(r), Cols(r))| == r.svc.minesLenght
    requires r.svc.remainingEmptyCells == Rows(r) * Cols(r) - r.svc.minesLenght
    ensures Playing(r)
  {
    var v, h := Rows(r), Cols(r);
    assert OpenedSet(r.cells, v, h) == {};
  }

  /** Opening a safe cell on an untouched grid opens no mine. */
  lemma FirstOpenSafe(g: Cells, r: Cells, v: nat, h: nat, c: Coord)
    requires Shape(g, v, h) && AllUntouched(g, v, h) && InBounds(v, h, c) && At(g, c).kind != Mine
    requires OpenedOver(g, r, v, h, c) && NoOtherMineOpened(g, r, v, h, c)
    ensures NoMineOpened(r, v, h)
  {
    forall d | InBounds(v, h, d) && At(r, d).isOpened
      ensures At(r, d).kind != Mine
    {
      assert Revealed(At(g, d), At(r, d), d == c && At(g, d).kind == Mine);
    }
  }

  /**
   * The state `onOpenCell` dispatches on: on the first click the flag is
   * cleared, the mines are placed at `positions` and the board re-parsed;
   * on any later click the state as it is.
   */
  function Prepare(s: Session, c: Coord, positions: seq<Coord>): (s1: Session)
    requires SessionShape(s) && InBounds(Rows(s), Cols(s), c)
    requires s.svc.isFirstClickInCell ==> ValidPositions(positions, Rows(s), Cols(s), s.svc.minesLenght, c)
    ensures SessionShape(s1) && Rows(s1) == Rows(s) && Cols(s1) == Cols(s)
    ensures s1.svc.minesLenght == s.svc.minesLenght && !s1.svc.isFirstClickInCell
    ensures !s.svc.isFirstClickInCell ==> s1 == s
    ensures s.svc.isFirstClickInCell ==> AllUntouched(s1.cells, Rows(s), Cols(s))
    ensures GameInv(s) ==> Playing(s1)
    ensures GameInv(s) && s.svc.isFirstClickInCell ==>
              MineCells(s1.svc.board, Rows(s), Cols(s)) == Elements(positions) && At(s1.svc.board, c) != Mine
  {
    if s.svc.isFirstClickInCell then PlaceMines(s, c, positions) else s
  }

  /**
   * `onOpenCell`. After `Prepare`, an opened cell goes to the chord and a
   * closed one is opened, with the outcomes of `OpenCell` and
   * `ManageCellsAround`. The game invariant holds after every click, the
   * clicked cell ends open, the board changes only on the first click, and
   * the first click never loses.
   */
  method OnOpenCell(s: Session, c: Coord, positions: seq<Coord>) returns (r: Session)
    requires SessionShape(s) && InBounds(Rows(s), Cols(s), c)
    requires s.svc.isFirstClickInCell ==> ValidPositions(positions, Rows(s), Cols(s), s.svc.minesLenght, c)
    ensures SessionShape(r) && Rows(r) == Rows(s) && Cols(r) == Cols(s)
    ensures r.svc.minesLenght == s.svc.minesLenght && !r.svc.isFirstClickInCell
    ensures !s.svc.isFirstClickInCell ==> r.svc.board == s.svc.board
    ensures GameInv(s) ==> Playing(r) && At(r.cells, c).isOpened
    ensures GameInv(s) && s.svc.isFirstClickInCell ==>
              && MineCells(r.svc.board, Rows(s), Cols(s)) == Elements(positions)
              && At(r.svc.board, c) != Mine && At(r.cells, c).isOpened
              && r.svc.gameStatus != Lost && NoMineOpened(r.cells, Rows(s), Cols(s))
    ensures var s1 := Prepare(s, c, positions); var k := At(s1.cells, c).kind;
            !At(s1.cells, c).isOpened ==>
              && At(r.cells, c).isOpened
              && (k == Mine ==> r.svc.gameStatus == Lost && r.svc.remainingEmptyCells == s1.svc.remainingEmptyCells)
              && (k != Mine ==> r.svc.gameStatus == WonIf(s1.svc.remainingEmptyCells, r.svc.remainingEmptyCells, Running))
              && (k != Mine && !IsZero(k) ==> r.svc.remainingEmptyCells == s1.svc.remainingEmptyCells - 1)
              && (IsZero(k) ==> r.svc.remainingEmptyCells
                                == Rows(s) * Cols(s) - (s.svc.minesLenght + |OpenedSet(r.cells, Rows(s), Cols(s))|))
              && (Playing(s1) && IsZero(k) ==>
                    forall d :: InBounds(Rows(s), Cols(s), d) ==> OpenedByFill(s1.cells, r.cells, Rows(s), Cols(s), c, d))
    ensures var s1 := Prepare(s, c, positions);
            At(s1.cells, c).isOpened ==>
              && (!Chordable(At(s1.cells, c).kind) ==> r == s1)
              && (Chordable(At(s1.cells, c).kind) && Playing(s1) ==> ChordDone(s1, c, r))
  {
    var s1 := Prepare(s, c, positions);
    if At(s1.cells, c).isOpened {
      r := ManageCellsAround(s1, c);
      if GameInv(s) && Chordable(At(s1.cells, c).kind) {
        assert ChordAt(s1.cells, r.cells, Rows(s), Cols(s), c, |Offsets|, FirstClosedMine(s1.cells, Rows(s), Cols(s), c, 0), c);
      }
    } else {
      r := OpenCell(s1, c);
      if GameInv(s) && s.svc.isFirstClickInCell {
        FirstOpenSafe(s1.cells, r.cells, Rows(s), Cols(s), c);
      }
    }
  }
}

=== FILE: scenario.dfy ===
/**
 * A whole game on a small board, played through `onOpenCell`: a 3 by 3 board
 * with one mine, placed at `[0, 0]`, and a first click at `[2, 2]`. The
 * clicked cell is a zero whose region and border cover every safe cell, so
 * the one click wins.
 */
module Scenario {
  import opened Grid
  import opened Enums
  import opened Layout
  import opened GameService
  import opened Board
  import opened FloodFill
  import opened BoardState
  import opened Reveal

  const Corner := Coord(0, 0)
  const Click := Coord(2, 2)

  /** With `[0, 0]` the only mine, a numeric entry away from it is 0. */
  lemma ZeroAwayFromCorner(b: MineBoard, d: Coord)
    requires Numbered(b, 3, 3) && MineCells(b, 3, 3) == {Corner}
    requires InBounds(3, 3, d) && d != Corner && !Adjacent(Corner, d)
    ensures IsZero(At(b, d))
  {
  }

  /** Every cell along a zero path is reached from its start. */
  lemma PathReach(g: Cells, v: nat, h: nat, p: seq<Coord>, k: nat)
    requires Shape(g, v, h) && ZeroPath(g, v, h, p) && k < |p|
    ensures Reach(g, v, h, p[0], p[k])
  {
    assert ZeroPath(g, v, h, p[..k + 1]);
  }

  /** A reached cell and its neighbours lie in the flood area. */
  lemma AreaVia(g: Cells, n: Coord, d: Coord)
    requires Shape(g, 3, 3) && InBounds(3, 3, d) && Reach(g, 3, 3, Click, n)
    requires n == d || Adjacent(n, d)
    ensures InFloodArea(g, 3, 3, Click, d)
  {
  }

  /** Every cell but the mine lies in the flood area of the click. */
  lemma CornerArea(g: Cells, d: Coord)
    requires Shape(g, 3, 3) && InBounds(3, 3, d) && d != Corner
    requires forall e :: InBounds(3, 3, e) && e != Corner && !Adjacent(Corner, e) ==> IsZero(At(g, e).kind)
    ensures InFloodArea(g, 3, 3, Click, d)
  {
    var left := [Click, Coord(2, 1), Coord(2, 0)];
    var up := [Click, Coord(1, 2), Coord(0, 2)];
    if d.y == 2 || d == Coord(1, 0) || d == Coord(1, 1) {
      assert ZeroPath(g, 3, 3, left);
      if d == Coord(2, 0) || d == Coord(1, 0) {
        PathReach(g, 3, 3, left, 2);
        AreaVia(g, Coord(2, 0), d);
      } else {
        PathReach(g, 3, 3, left, 0);
        AreaVia(g, Click, d);
      }
    } else {
      assert ZeroPath(g, 3, 3, up);
      PathReach(g, 3, 3, up, 2);
      AreaVia(g, Coord(0, 2), d);
    }
  }

  /** After the fill from the click, exactly the cells other than the mine are open. */
  lemma CornerOpened(g: Cells, b: MineBoard, r: Cells)
    requires Shape(g, 3, 3) && Shape(r, 3, 3) && KindsMatch(g, b, 3, 3)
    requires Numbered(b, 3, 3) && MineCells(b, 3, 3) == {Corner}
    requires AllUntouched(g, 3, 3)
    requires forall d :: InBounds(3, 3, d) ==> OpenedByFill(g, r, 3, 3, Click, d)
    ensures OpenedSet(r, 3, 3) == AllCells(3, 3) - {Corner}
  {
    forall e | InBounds(3, 3, e) && e != Corner && !Adjacent(Corner, e)
      ensures IsZero(At(g, e).kind)
    {
      ZeroAwayFromCorner(b, e);
    }
    forall d | InBounds(3, 3, d)
      ensures At(r, d).isOpened <==> d != Corner
    {
      assert OpenedByFill(g, r, 3, 3, Click, d);
      if d != Corner {
        CornerArea(g, d);
      }
    }
  }

  /** The state the click is dispatched on: the mine down at `[0, 0]`, every cell closed. */
  lemma CornerPrepared(s: Session)
    requires GameInv(s) && s.svc.isFirstClickInCell
    requires Rows(s) == 3 && Cols(s) == 3 && s.svc.minesLenght == 1
    ensures ValidPositions([Corner], 3, 3, 1, Click)
    ensures var s1 := Prepare(s, Click, [Corner]);
      && Playing(s1) && Rows(s1) == 3 && Cols(s1) == 3 && s1.svc.minesLenght == 1
      && MineCells(s1.svc.board, 3, 3) == {Corner} && AllUntouched(s1.cells, 3, 3)
      && !At(s1.cells, Click).isOpened
  {
    assert ValidPositions([Corner], 3, 3, 1, Click);
    var s1 := Prepare(s, Click, [Corner]);
    assert Elements([Corner]) == {Corner};
    assert !At(s1.cells, Click).isOpened by {
      assert AllUntouched(s1.cells, 3, 3);
    }
  }

  /** The click's outcome, given what `onOpenCell` promises for a closed zero. */
  lemma CornerOutcome(s1: Session, r: Session)
    requires Playing(s1) && Rows(s1) == 3 && Cols(s1) == 3 && s1.svc.minesLenght == 1
    requires MineCells(s1.svc.board, 3, 3) == {Corner} && AllUntouched(s1.cells, 3, 3)
    requires SessionShape(r) && Rows(r) == 3 && Cols(r) == 3
    requires IsZero(At(s1.cells, Click).kind) ==>
               && r.svc.gameStatus == WonIf(s1.svc.remainingEmptyCells, r.svc.remainingEmptyCells, Running)
               && r.svc.remainingEmptyCells == 3 * 3 - (1 + |OpenedSet(r.cells, 3, 3)|)
               && forall d :: InBounds(3, 3, d) ==> OpenedByFill(s1.cells, r.cells, 3, 3, Click, d)
    ensures OpenedSet(r.cells, 3, 3) == AllCells(3, 3) - {Corner}
    ensures r.svc.remainingEmptyCells == 0 && r.svc.gameStatus == Won
  {
    assert s1.svc.remainingEmptyCells == 8;
    ZeroAwayFromCorner(s1.svc.board, Click);
    assert IsZero(At(s1.cells, Click).kind);
    CornerOpened(s1.cells, s1.svc.board, r.cells);
    AllCellsCard(3, 3);
  }

  /**
   * The one-click game: from the empty 3 by 3 game with one mine, the mine
   * placed at `[0, 0]` and the click at `[2, 2]`, every safe cell ends open,
   * the mine stays closed, the counter reaches 0 and the game is won.
   */
  method CornerMineWins(s: Session) returns (r: Session)
    requires GameInv(s) && s.svc.isFirstClickInCell
    requires Rows(s) == 3 && Cols(s) == 3 && s.svc.minesLenght == 1
    ensures SessionShape(r) && Rows(r) == 3 && Cols(r) == 3
    ensures OpenedSet(r.cells, 3, 3) == AllCells(3, 3) - {Corner}
    ensures r.svc.remainingEmptyCells == 0 && r.svc.gameStatus == Won
  {
    var positions := [Corner];
    assert ValidPositions(positions, 3, 3, 1, Click);
    r := OnOpenCell(s, Click, positions);
    CornerPrepared(s);
    CornerOutcome(Prepare(s, Click, positions), r);
  }

  /** The empty 3 by 3 game with one mine is a state `CornerMineWins` accepts. */
  lemma CornerGameStarts()
    ensures var s := Init(3, 3, 1);
      GameInv(s) && s.svc.isFirstClickInCell && Rows(s) == 3 && Cols(s) == 3 && s.svc.minesLenght == 1
  {
  }
}

=== FILE: wrappers.dfy ===
/** The conventional optional value, used where the source returns `undefined`. */
module Wrappers {

  datatype Option<+T> = None | Some(value: T)
}
